=== FILE: README.md ===
# home-cam-control, modelled in Dafny

A Dafny model of the logic at the core of the home-cam-control smart-home dashboard: a React app over a hosted Postgres/auth backend, with one edge function. The model covers:

- **Shared validators** (`Password`, `Sanitize`): the password strength policy, the input sanitiser with its four XSS deletions, the truncation rules, and e-mail validation.
- **Authentication flows**, which exist three times in the code and disagree with each other:
  - `AuthContext`: the context's own checks, which throw on failure;
  - `AuthService`: normalising, typed errors, generic messages;
  - `AuthPage`: the form's field errors.

  `Routing` covers the two route guards.
- **Authorisation ladders** (`SecureDeviceControl`, `CameraStream`). Each one is an ordered series of guards. Each guard either returns early or logs a security event.
- **Small stores** (`DeviceSettings`, `SystemLogs`, `DeviceControls`, `Notifications`, `PiConnection`):
  - the `device_settings` upsert keyed by (user, trimmed name);
  - the newest-first and newest-twenty refetches;
  - the single-device and all-device toggles;
  - the five-entry notification list;
  - the Raspberry Pi reachability state.

How the model represents things:

- **Strings** are `seq<char>`.
- **Backend tables** are sequences of rows. `Backend` holds the shared query shapes: `.eq` filters, `.order('created_at', desc)`, `.limit`, and `.maybeSingle()`.
- **Row-level security** is an explicit filter on the row's owner.
- **The backend's answers** are parameters of each operation:
  - for writes, a `WriteReply` says whether the write succeeded and gives a time and the new row's id. The time stands for the client's `new Date()` where the code sends one (`updated_at`, `read_at`) and for the database's default where it does not (a new row's `created_at`);
  - for auth calls, an `AuthReply` says whether there was no error, an error object, or a thrown exception;
  - for the auth service, a session map;
  - for the Pi's HTTP check, a reachability flag.
- **Regular expressions** are modelled concretely:
  - each global `.replace(regex, '')` is a left-to-right scan that deletes matches (`Sanitize.Strip`);
  - the e-mail expression is a ghost regular language (`InEmailLanguage`). It is proved equal to an executable check (`MatchesEmailPattern`).

`src/components/CameraFeed.tsx` has no reconnection logic; it only runs a random motion simulation, so nothing of it is modelled.

Several proved properties record disagreements in the code itself:

- The context's password rule is weaker than the shared policy (`Password.LocalCheckIsWeaker`).
- The page's six-character rule is weaker than the context's (`AuthPage.PageAcceptsWeakSignUp`).
- Sign-in checks no strength rule at all (`AuthContext.SignInHasNoStrengthRule`).
- Only the utility's e-mail check has the 254-character cap (`AuthContext.LocalEmailHasNoLengthCap`).

## Model

| member | source | states |
|---|---|---|
| Password.Validate | src/utils/passwordValidation.ts:7-49 | A rule's issue is reported exactly when the password breaks that rule (length, upper, lower, digit, special character, common). Issues come in checking order with no repeats, and the result is valid iff no rule is broken. |
| Password.CollectIsOrdered | src/utils/passwordValidation.ts:10-43 | The six accumulated checks add their issues in strictly increasing rule rank, so no issue appears twice. |
| Password.ValidPasswordShape | src/utils/passwordValidation.ts:11-43 | An accepted password has at least 8 characters, an upper-case letter, a lower-case letter, a digit and a special character, and its lower-cased form is not on the nine-entry common list. |
| Password.CommonCheckIgnoresCase | src/utils/passwordValidation.ts:36-43 | Two passwords equal up to letter case are judged alike by the common-password rule. |
| Password.ShoutedCommonPasswordRejected | src/utils/passwordValidation.ts:41-43 | `PassWord1` is rejected as too common, because the list is compared after lower-casing. |
| Password.ValidateLocal | src/contexts/AuthContext.tsx:31-45 | Accepted iff the password has at least 8 characters, a lower-case letter, an upper-case letter and a digit. Otherwise the message is that of the FIRST failing rule, in the order length, lower, upper, digit. |
| Password.LocalCheckIsWeaker | src/contexts/AuthContext.tsx:31-45 | `Abcdefg1` passes the context's check but fails the shared policy, which needs a special character. |
| Password.PolicyImpliesLocal | src/utils/passwordValidation.ts:7-49 | Every password the shared policy accepts is accepted by the context's check. |
| Sanitize.MatchLength | src/utils/inputSanitization.ts:7-10 | What each regex matches at the start of a string. `<script\b…</script>`: matches iff `<script` (any case) is followed by a word boundary and some later `</script>`, and then runs through the first one. `<[^>]*>`: matches iff the string starts with `<` and a `>` follows, and then ends at the first `>`. `javascript:`: the 11 characters, any case. `on\w+\s*=`: matches iff the prefix has that shape, and then covers all of it. |
| Sanitize.Strip | src/utils/inputSanitization.ts:6-10 | A global regex deletion only deletes characters: the result is a subsequence of the input. |
| Sanitize.StripKeepsPlain | src/utils/inputSanitization.ts:7-10 | A string without `<`, `:` or `=` passes each deletion unchanged. |
| Sanitize.StripTagsLeavesNoTag | src/utils/inputSanitization.ts:8 | After `<[^>]*>` matches are deleted, no `<` is followed anywhere later by a `>`. |
| Sanitize.SubsequenceKeepsNoTag | src/utils/inputSanitization.ts:9-11 | The deletions after the tag step, and trimming, cannot reintroduce a `<`...`>` pair. |
| Sanitize.Cleaned | src/utils/inputSanitization.ts:6-11 | The four deletions plus `trim()` give a trimmed subsequence of the input with no `<` before a `>`. |
| Sanitize.CleanedKeepsPlain | src/utils/inputSanitization.ts:6-11 | A trimmed string without `<`, `:` or `=` is its own cleaned form. |
| Sanitize.SanitizeInput | src/utils/inputSanitization.ts:2-19 | The result is a prefix of the cleaned string, in these cases: empty input gives `""`; an omitted or zero limit keeps it whole; a positive limit gives exactly `min(cleaned length, limit)` characters, cutting only when exceeded; a negative limit gives `""`. It is always a tag-free subsequence of the input. |
| Sanitize.KeepNameChars | src/utils/inputSanitization.ts:27 | Every character of `[a-zA-Z0-9\s\-_]` is kept exactly as often as it occurs in the input, every other character is dropped, and the order is kept. |
| Sanitize.SanitizeDeviceName | src/utils/inputSanitization.ts:26-28 | At most 50 characters, all in the name alphabet. The result is a subsequence of the input sanitised with limit 50, and holds every name character of it exactly as often. |
| Sanitize.PlainNameUnchanged | src/utils/inputSanitization.ts:26-28 | A trimmed name of at most 50 name characters is stored exactly as given. |
| Sanitize.SubsequenceLength | src/utils/inputSanitization.ts:27 | Deleting characters never lengthens a string. This is why the 50-character cap survives the character filter. |
| Sanitize.SanitizeLogMessage | src/utils/inputSanitization.ts:30-32 | Exactly the first `min(cleaned length, 500)` characters of the cleaned message; so a subsequence of the message with no `<` before a `>`. |
| Sanitize.PlainMessageUnchanged | src/utils/inputSanitization.ts:30-32 | A trimmed message of at most 500 characters without `<`, `:` or `=` is logged exactly as given. |
| Sanitize.LanguageIsPattern | src/utils/inputSanitization.ts:22 | Every string of the language `[^\s@]+@[^\s@]+\.[^\s@]+` passes the executable check. |
| Sanitize.PatternIsLanguage | src/utils/inputSanitization.ts:22 | Every string the executable check passes is in the language. |
| Sanitize.EmailPatternIsLanguage | src/utils/inputSanitization.ts:22 | The executable check and the regular language agree on every string. |
| Sanitize.ValidateEmail | src/utils/inputSanitization.ts:21-24 | True iff the address is in the e-mail language and has at most 254 characters. |
| Sanitize.EmailPatternShape | src/utils/inputSanitization.ts:22 | A matching address has no whitespace, exactly one `@` (not first), and a `.` strictly inside the domain part. |
| Sanitize.ValidEmailShape | src/utils/inputSanitization.ts:21-24 | An accepted address has at most 254 characters and the shape above. |
| Sanitize.ShortAddressAccepted | src/utils/inputSanitization.ts:22 | `a@b.c`, with one character per run, is in the language and accepted. |
| Sanitize.FindIgnoringCase | src/utils/inputSanitization.ts:7 | The `i` flag: finds the first position where the literal occurs up to ASCII case, and reports none when there is none. |
| Sanitize.WordRunEnd | src/utils/inputSanitization.ts:10 | The greedy `\w+` run: every character before the returned end is a word character, and the one at the end is not. |
| AuthContext.UseAuth | src/contexts/AuthContext.tsx:17-23 | Outside a provider it throws the provider message. Inside one it returns the context value unchanged. |
| AuthContext.ValidateEmailLocal | src/contexts/AuthContext.tsx:26-29 | True iff the address is in the e-mail language, with no length cap. |
| AuthContext.LocalEmailHasNoLengthCap | src/contexts/AuthContext.tsx:26-29 | A 255-character address passes the context's check but not the utility's. |
| AuthContext.Submit | src/contexts/AuthContext.tsx:108-122 | The credentials are always submitted. It returns iff there was no error. An error object is shown with the action's prefix and rethrown. An exception passes through with its message. No error gives the success toast. |
| AuthContext.SignUp | src/contexts/AuthContext.tsx:92-123 | The raw email and password reach the backend iff the email is in the language and the password passes the local rules. An invalid email is thrown first; otherwise the first failing password rule's message is thrown. It returns iff submitted and the reply has no error. Backend errors are rethrown with their message and shown as `Sign up failed: `. |
| AuthContext.SignIn | src/contexts/AuthContext.tsx:125-155 | The raw credentials are submitted iff the email is in the language and the password is non-empty. Otherwise the email message or `Password is required` is thrown. The backend outcome is handled as in sign-up, shown as `Sign in failed: `. |
| AuthContext.SignOut | src/contexts/AuthContext.tsx:157-169 | Returns iff the backend reports no error. Otherwise it throws the backend's message. |
| AuthContext.SignUpValidatesBeforeBackend | src/contexts/AuthContext.tsx:95-106 | A sign-up that fails validation submits nothing, throws, and does not depend on the backend's reply. |
| AuthContext.SignInValidatesBeforeBackend | src/contexts/AuthContext.tsx:128-138 | A sign-in that fails validation submits nothing, throws, and does not depend on the backend's reply. |
| AuthContext.SignInHasNoStrengthRule | src/contexts/AuthContext.tsx:134-143 | The password `x` is submitted by sign-in and refused by sign-up. |
| AuthService.NormalizeEmail | src/services/authService.ts:15 | The submitted address is exactly the first `min(length, 254)` characters of the cleaned, trimmed, lower-cased input. So it is no longer than the input, has no upper-case letter, and has no `<` before a `>`. |
| AuthService.PlainAddressUnchanged | src/services/authService.ts:15 | A trimmed, lower-case address of at most 254 characters without `<`, `:` or `=` is submitted exactly as typed. |
| AuthService.PlainAddressSignsIn | src/services/authService.ts:69-88 | Such an address, when valid, reaches the backend unchanged on sign-in, with the password. |
| AuthService.NormalizeIgnoresSurroundingSpace | src/services/authService.ts:15 | Pre-trimming the email changes nothing. |
| AuthService.SignUpMessage | src/services/authService.ts:42-48 | The shown text is always one of the three generic messages. `already registered` takes precedence over `invalid`. |
| AuthService.Submitted | src/services/authService.ts:35-63 | Success iff there was no error, and then there is no error object. An error object maps to an `auth` error. An exception maps to the `network` error. |
| AuthService.SignUp | src/services/authService.ts:12-64 | The normalised email and raw password are submitted iff the normalised email is valid and the policy accepts the password. Otherwise it gives a `validation` error: the e-mail message, or the policy's messages joined by `. `. Exactly one of success and an error holds, and only validation failures have kind `validation`. |
| AuthService.SignIn | src/services/authService.ts:66-106 | Submitted iff the normalised email is valid and the password is non-empty. Every backend error reads `Invalid email or password`, and an exception is the network error. |
| AuthPage.ValidateForm | src/pages/Auth.tsx:29-63 | Email errors: present iff the email is not in the language, reading `required` when it is empty. Password errors: present iff it has fewer than 6 characters. Sign-up adds a blank-name error and a missing or mismatched confirmation error. Sign-in never reports those two. Accepted iff there are no errors. |
| AuthPage.HandleInputChange | src/pages/Auth.tsx:65-71 | The field takes the value and the other fields are unchanged. An error already recorded for that field is blanked, other errors are kept, and no key is added. |
| AuthPage.AcceptedSignInReachesBackend | src/pages/Auth.tsx:29-45 | A sign-in form the page accepts always reaches the auth service through the context. |
| AuthPage.AcceptedSignUpShape | src/pages/Auth.tsx:29-59 | An accepted sign-up form has a valid email, a password of at least 6 characters equal to its confirmation, and a non-blank name. |
| AuthPage.PageAcceptsWeakSignUp | src/pages/Auth.tsx:41-45 | The password `abcdef` passes the page but is refused by the context's sign-up. |
| Routing.ProtectedRoute | src/components/ProtectedRoute.tsx:9-32 | Loading shows the loading screen. Otherwise, with no user it redirects (replace) to `/auth`. The children render iff a user is loaded. |
| Routing.AuthRoute | src/pages/Auth.tsx:25-27 | A loaded user is redirected to `/`. Loading shows the loading screen, and otherwise the form is shown. |
| Routing.NoRedirectLoop | src/components/ProtectedRoute.tsx:12-31 | The two guards never both redirect. Each redirects only to a page that will render. |
| SecureDeviceControl.OutOfRangeMeaning | src/hooks/useSecureDeviceControl.ts:43 | The NaN-or-below-or-above test rejects everything except finite numbers in `[lo, hi]`. |
| SecureDeviceControl.ValidateInput | src/hooks/useSecureDeviceControl.ts:18-66 | Accepts iff the id is not blank, the action is on the six-entry allow-list, and a defined temperature is in 50..90 and a defined brightness in 0..100. Each failure names its first failing check. An undefined value is never range-checked. |
| SecureDeviceControl.ExecuteDeviceControl | src/hooks/useSecureDeviceControl.ts:68-170 | No user or invalid input: refused without touching the backend. Otherwise the device is controlled iff the lookup succeeds, a row exists and it is active, logging one success event for that action. Not owned iff the lookup returns no row; the ownership error iff the database is unreachable or more than one row matches. Each of these two logs one failure event for the device. Inactive logs nothing. Only a granted control logs a success. |
| CameraStream.OrUnknown | supabase/functions/secure-camera-stream/index.ts:47-48 | Absent and empty headers read as `unknown`. Others are kept. |
| CameraStream.BearerToken | supabase/functions/secure-camera-stream/index.ts:36-38 | The first occurrence of `Bearer `, wherever it is, is cut out, and the token is seven characters shorter than the header. A header without `Bearer ` is passed through unchanged. |
| CameraStream.BearerRoundTrip | supabase/functions/secure-camera-stream/index.ts:36-38 | The header `Bearer <token>` yields exactly `<token>`. |
| CameraStream.BearerPrefixRemoved | supabase/functions/secure-camera-stream/index.ts:37 | `Bearer abc` gives the token `abc`. |
| CameraStream.BearerRemovedFromMiddle | supabase/functions/secure-camera-stream/index.ts:37 | `xBearer y` gives `xy`: the string replace cuts the first occurrence wherever it is. |
| CameraStream.Handle | supabase/functions/secure-camera-stream/index.ts:10-128 | Every response carries the CORS headers.<br>- Preflight: 200, with nothing logged or checked.<br>- No header: 401 with no backend call.<br>- 500 iff the client cannot be created.<br>- Failed authentication: 401 with one `unauthorized_camera_access` event recording IP and user agent.<br>- 403 iff the ownership query fails or the user does not have exactly one active `camera_001` camera row.<br>- 200 only after both checks, logging one success event and naming the row's device.<br>The token checked is the header minus `Bearer `. |
| CameraStream.FailedQueryDeniesOwner | supabase/functions/secure-camera-stream/index.ts:62-90 | Only `data` is read from the ownership query, so when the query fails even the owner of the one active camera is refused with 403; the same request with a working query gets 200. |
| DeviceSettings.Overwrite | src/hooks/useDeviceSettings.ts:52-63 | Rows with the conflict key get the written columns and keep their id, creation time and key. All other rows are unchanged. |
| DeviceSettings.OverwriteKeepsOthers | src/hooks/useDeviceSettings.ts:52-63 | The rows without the key are the same before and after, in both directions. |
| DeviceSettings.Upsert | src/hooks/useDeviceSettings.ts:52-63 | Afterwards the key exists and all its rows hold the written columns. Other rows are untouched in both directions, and key uniqueness is kept. An existing key is updated in place, keeping ids and creation times. A new key appends exactly one row with the database's id and time. |
| DeviceSettings.UpsertIdempotent | src/hooks/useDeviceSettings.ts:52-63 | Repeating the same upsert leaves the table as the first one did. |
| DeviceSettings.Fetch | src/hooks/useDeviceSettings.ts:28-31 | Exactly the user's rows, each as often as the table holds it, newest first. |
| DeviceSettings.FetchDeviceSettings | src/hooks/useDeviceSettings.ts:26-41 | On success the shown list is exactly the user's rows, each as often as the table holds it, newest first. On an error it is left unchanged. The table is never changed. |
| DeviceSettings.UpdateDeviceSetting | src/hooks/useDeviceSettings.ts:43-71 | No user, a blank name or a failed write changes nothing. Otherwise the table becomes `Upsert` of it under the trimmed name, the active flag and the given settings (or `{}`), and the shown list becomes `Fetch` of the new table for that user. |
| SystemLogs.FetchLogs | src/hooks/useSystemLogs.ts:29-33 | The user's rows only, none more often than the table holds it, newest first. There are `min(visible, 20)` of them, and none when signed out. No visible row left out is newer than a row shown. |
| Backend.PrefixHoldsNewest | src/hooks/useSystemLogs.ts:32-33 | The first `n` rows of a newest-first list are drawn from it and are its newest: no row left out is newer than a row kept. |
| SystemLogs.RefreshLogs | src/hooks/useSystemLogs.ts:27-42 | On success the shown list is `FetchLogs` of the table: at most 20 of the user's rows, newest first, none left out newer than one shown. On an error the list is unchanged. The table is never changed. |
| SystemLogs.SmallTableShownWhole | src/hooks/useSystemLogs.ts:29-33 | With at most twenty visible rows, every row of the user is shown, as often as the table holds it. |
| SystemLogs.MessageText | src/hooks/useSystemLogs.ts:62 | The stored message is the given message trimmed, and empty when there is no message. |
| SystemLogs.AddLog | src/hooks/useSystemLogs.ts:44-71 | No user, a blank type or title, or a failed insert changes nothing. Otherwise exactly one row is appended after the existing ones: the user's, with trimmed non-empty type and title, trimmed message, the given metadata or `{}`, unread, and the database's id and time. The list is then refreshed. |
| SystemLogs.MarkAsRead | src/hooks/useSystemLogs.ts:73-89 | A blank id or a failed update changes nothing. Otherwise exactly the user's rows with that id get `read_at`, and the shown list is refetched from the updated table. Rows that were read stay read. |
| SystemLogs.MarkAsReadIdempotent | src/hooks/useSystemLogs.ts:79-82 | Marking twice at the same time is marking once. |
| SystemLogs.MarkAsReadNeedsUser | src/hooks/useSystemLogs.ts:79-82 | Signed out, row-level security lets the update reach no row. |
| DeviceControls.GetDeviceState | src/components/DeviceControls.tsx:25-28 | The state of the first shown setting with the name, or off when there is none. |
| DeviceControls.DisplayedState | src/components/DeviceControls.tsx:25-28 | When some shown row has the name and all such rows agree, that state is displayed. |
| DeviceControls.ShownAsSet | src/components/DeviceControls.tsx:25-28 | A device set in the table shows as set in the user's refreshed list. |
| DeviceControls.Update | src/components/DeviceControls.tsx:34 | The upsert under the trimmed name is sent iff a user is signed in and the name is not blank. A successful write leaves that device set. |
| DeviceControls.UpdateKeepsSet | src/components/DeviceControls.tsx:34 | A write to one device leaves every other device's state as it was. |
| DeviceControls.Log | src/components/DeviceControls.tsx:35 | A `device_control` insert is sent iff a user is signed in. The log store becomes that of `addLog`: signed in and inserted, exactly one new `device_control` row for the user, with the trimmed title and message, after the existing rows; otherwise unchanged. The settings are untouched. |
| DeviceControls.TitleNotBlank | src/components/DeviceControls.tsx:35 | A `name On`/`name Off` title is never blank, so the log insert is never refused for its title. |
| DeviceControls.ToggleDevice | src/components/DeviceControls.tsx:30-41 | Sends the write of the negated displayed state, then the log entry, whether or not the write succeeded. A successful write of a trimmed name flips the displayed state. The log store gains the toggle's `addLog` entry: after a successful insert, exactly one new `device_control` row titled with the name and `On` or `Off`. |
| DeviceControls.WritesFrom | src/components/DeviceControls.tsx:44-46 | One upsert per remaining device, in configuration order. |
| DeviceControls.WriteFrom | src/components/DeviceControls.tsx:44-46 | The loop sends exactly those upserts and leaves the logs alone. |
| DeviceControls.WriteFromKeepsSet | src/components/DeviceControls.tsx:44-46 | The loop leaves a device outside its remaining names as it was. |
| DeviceControls.WriteFromShown | src/components/DeviceControls.tsx:44-46 | After a successful last write, the shown list is the user's part of the table. |
| DeviceControls.WriteFromSets | src/components/DeviceControls.tsx:44-46 | When all the loop's writes succeed, each device written is set to the requested state. |
| DeviceControls.DeviceNamesWellFormed | src/components/DeviceControls.tsx:14-19 | The four configured names are trimmed, not blank and distinct. |
| DeviceControls.AllDevicesTitleNotBlank | src/components/DeviceControls.tsx:47 | The `All devices on/off` title is not blank. |
| DeviceControls.ToggleAll | src/components/DeviceControls.tsx:43-49 | Signed out, nothing changes. Signed in, it sends one upsert per name in order, then one log entry. The log store is that of one `addLog`: after a successful insert it holds exactly one new `device_control` row titled `All devices on` or `All devices off`, after the existing rows. |
| DeviceControls.ToggleAllDevices | src/components/DeviceControls.tsx:43-49 | The same for the four configured devices, including the one new `All devices on`/`off` log row. |
| DeviceControls.ToggleAllShowsState | src/components/DeviceControls.tsx:43-49 | When every write succeeds, every named device shows the requested state. |
| DeviceControls.ToggleAllDevicesShowsState | src/components/DeviceControls.tsx:43-49 | When every write succeeds, all four configured devices show the requested state. |
| Notifications.Add | src/components/NotificationPanel.tsx:51 | The new notification comes first, followed by the first four old ones in order. There are `1 + min(n, 4)` entries. |
| Notifications.AddManyStaysBounded | src/components/NotificationPanel.tsx:40-53 | Any number of arrivals keeps the list at five entries at most, with the latest arrival first. |
| Notifications.Remove | src/components/NotificationPanel.tsx:58-60 | Exactly the entries with another id remain, each as often as before. An unknown id leaves the list unchanged. |
| Notifications.RemoveKeepsOrder | src/components/NotificationPanel.tsx:58-60 | The survivors keep their original order. |
| Notifications.ClearAllEmpties | src/components/NotificationPanel.tsx:92 | After clearing the list is empty. Removing does nothing, and the next arrival is alone. |
| Notifications.StyleOf | src/components/NotificationPanel.tsx:62-78 | `warning` and `error` share the `AlertTriangle` icon and differ in colour (yellow and red); `success` has its own icon and colour. Every other type is shown as information. |
| Notifications.DeclaredTypesDistinguished | src/components/NotificationPanel.tsx:62-78 | The four declared types get four different colours. |
| PiConnection.CheckConnection | src/hooks/usePiConnection.ts:16-53 | The connecting flag is cleared and a device is always known afterwards. It is online iff the check succeeded, and then holds the fixed id and name, the checked address and the current time. A failure keeps a known device's id, name, address and last-seen time but marks it offline. With no known device, a failure creates an offline one. |
| PiConnection.FailureKeepsOldAddress | src/hooks/usePiConnection.ts:43 | A failed check of a new address still reports the known device's old address. |
| PiConnection.CheckIdempotent | src/hooks/usePiConnection.ts:16-53 | Repeating a check with the same outcome at the same time changes nothing more. |
| PiConnection.NeverConnecting | src/hooks/usePiConnection.ts:31-49 | No sequence of checks leaves the device in the declared `connecting` status. |

## Left out

- **Lengths.** They count Unicode scalar values, whereas JavaScript's `.length` and `substring` count UTF-16 code units. The two differ only for characters outside the Basic Multilingual Plane.
- **Lower-casing.** `toLowerCase()` is modelled for ASCII letters only. This does not change the common-password rule: the only non-ASCII character that lower-cases into ASCII is the Kelvin sign, which becomes `k`, and none of the nine listed passwords contains a `k`. It does change `NormalizeEmail` for non-ASCII addresses.
- **The e-mail expression** is modelled without the `u` flag, as in the source. Whitespace is the ECMAScript `\s` set.
- **`maxLength`.** Only an integer or an omitted argument is modelled. A fractional limit is not.
- **`params.deviceId`.** The `typeof` test on `deviceId` is not modelled, because the model's ids are always strings.
- **`params.value`.** It is reduced to its `Number(...)` coercion, `Num`. The coercion rules themselves are not modelled.
- **Security events and records.** Their `details`, `metadata` and `settings` keep only string values. The `value` entry of a device-control event is not modelled.
- **The `log_security_event` RPC** is assumed not to throw. If it did, a control would fall into the catch branch.
- **Row-level security** is modelled as an owner filter. The database's policies themselves are not part of this model.
- **`CameraStream.Handle`:** any exception other than being unable to create the client (for example a failed RPC) is not modelled. Only `clientConfigured` leads to the 500.
- **One clock.** A `WriteReply`'s time stands both for the client's `new Date()` (`updated_at` in `src/hooks/useDeviceSettings.ts:60`, `read_at` in `src/hooks/useSystemLogs.ts:81`) and for the database's default `created_at`. So a new settings row is assumed to be created and updated at the same instant, and the client and database clocks are assumed to agree.
- **Refetch after a write.** In `UpdateDeviceSetting`, `AddLog` and `MarkAsRead` the refetch is modelled and is assumed to succeed. A failed refetch would leave the old list shown.
- **Loading flags** and the `finally` blocks that only reset them are not modelled.
- **Asynchrony.** React state, effects, timers (the 15-second notification interval, the 30-second Pi poll), the auth-state subscription and its `mounted` flag are not modelled. Concurrent interleaving of awaits is not modelled either.
- **`fetch` and `AbortSignal.timeout`** are replaced by their outcome.
- **Simulated notifications.** The random content of arrivals (`Math.random`, `Date.now`) is not modelled. `Add` takes any notification.
- **Console output, toast texts and toasts** are not modelled, except where the toast carries the auth context's messages. This covers the device control's toasts and `signOut`'s toasts.
- **`src/pages/Auth.tsx` submit handlers (lines 73-153).** They call the context's actions expecting result objects, but the context throws instead. Their toast branches are not modelled; the field validation, input handler and redirect are.
- **The page's `errors` map** is keyed by the four form fields rather than by arbitrary strings.
- **`PiConnection.ConnectToPi`** is the same check with a log line, so it has no contract of its own.
- **`Notifications.ClearAll`** is the constant empty list; its effect is stated in `ClearAllEmpties`.
- **Other parts of the repository** are not part of this model: `camera_stream.py`, `test_camera.py`, and the UI-only components.
- **Sanitiser properties not claimed.** The sanitiser is not claimed to be idempotent, and `javascript:` is not claimed to be absent from its output. Both fail: a deletion can join two halves into a new match, as in `javajavascript:script:`.

=== FILE: auth_context.dfy ===
/** `src/contexts/AuthContext.tsx`: the `useAuth` guard, and the validation and
    backend handling of the context's `signUp`, `signIn` and `signOut`, which
    report failure by throwing. */
module AuthContext {
  import opened Text
  import opened Password
  import opened Sanitize
  import opened Backend

  /** The context value components read: the current user and the loading flag. */
  datatype Session = Session(user: Option<string>, loading: bool)

  /** A call that either returns a value or throws an error with a message. */
  datatype Outcome<T> = Returned(value: T) | Threw(message: string)

  datatype Toast = ErrorToast(text: string) | SuccessToast(text: string)

  /** One call of an auth action: its outcome, the credentials it submitted to
      the auth service (if it got that far) and the toasts it showed. */
  datatype AuthCall = AuthCall(outcome: Outcome<()>, submitted: Option<Credentials>, toasts: seq<Toast>)

  const OutsideProvider := "useAuth must be used within an AuthProvider"

  /** `useAuth`: the context value inside a provider; outside one (`undefined`) it throws. */
  function UseAuth(context: Option<Session>): (r: Outcome<Session>)
    ensures r.Threw? <==> context.None?
    ensures r.Threw? ==> r.message == OutsideProvider
    ensures r.Returned? ==> Some(r.value) == context
  {
    match context
    case None => Threw(OutsideProvider)
    case Some(session) => Returned(session)
  }

  /** The context's own `validateEmail`: the regular expression alone, with no
      length cap. */
  function ValidateEmailLocal(email: string): (ok: bool)
    ensures ok <==> InEmailLanguage(email)
  {
    EmailPatternIsLanguage(email);
    MatchesEmailPattern(email)
  }

  /** A 255-character address: the local check accepts it, the utility's
      `validateEmail` (capped at 254) does not. */
  lemma LocalEmailHasNoLengthCap()
    ensures ValidateEmailLocal(seq(251, _ => 'a') + "@b.c")
    ensures !ValidateEmail(seq(251, _ => 'a') + "@b.c")
  {
    var s := seq(251, _ => 'a') + "@b.c";
    assert |s| == 255;
    assert s[251] == '@' && s[253] == '.';
    assert AllAddressChars(s[..251]) by {
      forall k | 0 <= k < 251 ensures IsAddressChar(s[..251][k]) {
        assert s[..251][k] == s[k] == 'a';
      }
    }
    assert s[252..253] == "b" && s[254..] == "c";
    assert InEmailLanguage(s);
  }

  const InvalidEmail := "Please enter a valid email address"

  /** The backend half shared by the three actions: the reply's error is shown
      with `failPrefix` and rethrown, a thrown exception passes through, and no
      error shows the success toast. */
  function Submit(reply: AuthReply, creds: Credentials, failPrefix: string, successText: string): (c: AuthCall)
    ensures c.submitted == Some(creds)
    ensures c.outcome.Returned? <==> reply.NoError?
    ensures !reply.NoError? ==> c.outcome == Threw(reply.message)
    ensures reply.ErrorReply? ==> c.toasts == [ErrorToast(failPrefix + reply.message)]
    ensures reply.NoError? ==> c.toasts == [SuccessToast(successText)]
  {
    match reply
    case NoError => AuthCall(Returned(()), Some(creds), [SuccessToast(successText)])
    case ErrorReply(m) => AuthCall(Threw(m), Some(creds), [ErrorToast(failPrefix + m)])
    case Exception(m) => AuthCall(Threw(m), Some(creds), [])
  }

  /** A validation failure: shown as a toast and thrown before the backend is reached. */
  function Reject(message: string): AuthCall {
    AuthCall(Threw(message), None, [ErrorToast(message)])
  }

  /** `signUp`: the regular expression on the raw email, then the context's
      first-failure password check, then the auth service. */
  function SignUp(email: string, password: string, reply: AuthReply): (c: AuthCall)
    // reaches the backend exactly when both checks pass, with the raw inputs
    ensures c.submitted.Some? <==>
      InEmailLanguage(email) && |password| >= 8 && HasLower(password) && HasUpper(password) && HasDigit(password)
    ensures c.submitted.Some? ==> c.submitted.value == Credentials(email, password)
    // the email is checked first
    ensures !InEmailLanguage(email) ==> c.outcome == Threw(InvalidEmail)
    ensures InEmailLanguage(email) && ValidateLocal(password).Rejected? ==>
      c.outcome == Threw(ValidateLocal(password).message)
    // success only with a clean reply; every backend failure is rethrown with its own message
    ensures c.outcome.Returned? <==> c.submitted.Some? && reply.NoError?
    ensures c.submitted.Some? && !reply.NoError? ==> c.outcome == Threw(reply.message)
    ensures c.submitted.Some? && reply.ErrorReply? ==> c.toasts == [ErrorToast("Sign up failed: " + reply.message)]
  {
    if !ValidateEmailLocal(email) then Reject(InvalidEmail)
    else
      match ValidateLocal(password)
      case Rejected(m) => Reject(if m == "" then "Invalid password" else m)
      case Accepted => Submit(reply, Credentials(email, password), "Sign up failed: ", "Account created successfully!")
  }

  /** `signIn`: the regular expression on the raw email, then only a non-empty
      password; no strength rule. */
  function SignIn(email: string, password: string, reply: AuthReply): (c: AuthCall)
    ensures c.submitted.Some? <==> InEmailLanguage(email) && |password| > 0
    ensures c.submitted.Some? ==> c.submitted.value == Credentials(email, password)
    ensures !InEmailLanguage(email) ==> c.outcome == Threw(InvalidEmail)
    ensures InEmailLanguage(email) && |password| == 0 ==> c.outcome == Threw("Password is required")
    ensures c.outcome.Returned? <==> c.submitted.Some? && reply.NoError?
    ensures c.submitted.Some? && !reply.NoError? ==> c.outcome == Threw(reply.message)
    ensures c.submitted.Some? && reply.ErrorReply? ==> c.toasts == [ErrorToast("Sign in failed: " + reply.message)]
  {
    if !ValidateEmailLocal(email) then Reject(InvalidEmail)
    else if |password| == 0 then Reject("Password is required")
    else Submit(reply, Credentials(email, password), "Sign in failed: ", "Welcome back!")
  }

  /** `signOut`: no checks; a failure is shown and rethrown. */
  function SignOut(reply: AuthReply): (c: Outcome<()>)
    ensures c.Returned? <==> reply.NoError?
    ensures !reply.NoError? ==> c == Threw(reply.message)
  {
    match reply
    case NoError => Returned(())
    case ErrorReply(m) => Threw(m)
    case Exception(m) => Threw(m)
  }

  /** A sign-up that fails validation does not depend on the backend at all. */
  lemma SignUpValidatesBeforeBackend(email: string, password: string, r1: AuthReply, r2: AuthReply)
    requires !InEmailLanguage(email) || ValidateLocal(password).Rejected?
    ensures SignUp(email, password, r1) == SignUp(email, password, r2)
    ensures SignUp(email, password, r1).submitted.None? && SignUp(email, password, r1).outcome.Threw?
  {
  }

  lemma SignInValidatesBeforeBackend(email: string, password: string, r1: AuthReply, r2: AuthReply)
    requires !InEmailLanguage(email) || |password| == 0
    ensures SignIn(email, password, r1) == SignIn(email, password, r2)
    ensures SignIn(email, password, r1).submitted.None? && SignIn(email, password, r1).outcome.Threw?
  {
  }

  /** Sign-in has no strength rule: a one-character password reaches the backend,
      while sign-up refuses it. */
  lemma SignInHasNoStrengthRule(reply: AuthReply)
    ensures SignIn("a@b.c", "x", reply).submitted == Some(Credentials("a@b.c", "x"))
    ensures SignUp("a@b.c", "x", reply).submitted.None?
  {
    ShortAddressAccepted();
  }
}

=== FILE: auth_page.dfy ===
/** `src/pages/Auth.tsx`: the sign-in / sign-up form's validation and its
    input-change handler. */
module AuthPage {
  import opened Text
  import opened Password
  import opened Sanitize
  import opened Backend
  import AuthContext

  /** The four inputs of the form. */
  datatype Field = Email | PasswordField | FullName | ConfirmPassword

  datatype Form = Form(email: string, password: string, fullName: string, confirmPassword: string) {
    function Get(f: Field): string {
      match f
      case Email => email
      case PasswordField => password
      case FullName => fullName
      case ConfirmPassword => confirmPassword
    }

    function Set(f: Field, value: string): (r: Form)
      ensures r.Get(f) == value
      ensures forall g :: g != f ==> r.Get(g) == Get(g)
    {
      match f
      case Email => this.(email := value)
      case PasswordField => this.(password := value)
      case FullName => this.(fullName := value)
      case ConfirmPassword => this.(confirmPassword := value)
    }
  }

  /** The form together with the error text recorded for each field. */
  datatype PageState = PageState(form: Form, errors: map<Field, string>)

  const EmailRequired := "Email is required"
  const PasswordRequired := "Password is required"
  const PasswordTooShort := "Password must be at least 6 characters"
  const NameRequired := "Full name is required"
  const ConfirmRequired := "Please confirm your password"
  const Mismatch := "Passwords do not match"

  /** The errors `validateForm` records; the form is accepted when there are none. */
  datatype FormCheck = FormCheck(errors: map<Field, string>, ok: bool)

  /** `validateForm(isSignUp)`. */
  function ValidateForm(form: Form, isSignUp: bool): (c: FormCheck)
    ensures c.ok <==> |c.errors| == 0
    // email: required, then the regular expression (no length cap)
    ensures Email in c.errors <==> !InEmailLanguage(form.email)
    ensures Email in c.errors ==>
      c.errors[Email] == (if |form.email| == 0 then EmailRequired else AuthContext.InvalidEmail)
    // password: required, then at least six characters, nothing else
    ensures PasswordField in c.errors <==> |form.password| < 6
    ensures PasswordField in c.errors ==>
      c.errors[PasswordField] == (if |form.password| == 0 then PasswordRequired else PasswordTooShort)
    // sign-in never complains about the sign-up-only fields
    ensures !isSignUp ==> FullName !in c.errors && ConfirmPassword !in c.errors
    ensures isSignUp ==> (FullName in c.errors <==> IsBlank(form.fullName))
    ensures FullName in c.errors ==> c.errors[FullName] == NameRequired
    ensures isSignUp ==>
      (ConfirmPassword in c.errors <==> |form.confirmPassword| == 0 || form.confirmPassword != form.password)
    ensures ConfirmPassword in c.errors ==>
      c.errors[ConfirmPassword] == (if |form.confirmPassword| == 0 then ConfirmRequired else Mismatch)
  {
    EmailPatternIsLanguage(form.email);
    var e: map<Field, string> := map[];
    var e := if |form.email| == 0 then e[Email := EmailRequired]
             else if !MatchesEmailPattern(form.email) then e[Email := AuthContext.InvalidEmail]
             else e;
    var e := if |form.password| == 0 then e[PasswordField := PasswordRequired]
             else if |form.password| < 6 then e[PasswordField := PasswordTooShort]
             else e;
    var e := if isSignUp && IsBlank(form.fullName) then e[FullName := NameRequired] else e;
    var e := if !isSignUp then e
             else if |form.confirmPassword| == 0 then e[ConfirmPassword := ConfirmRequired]
             else if form.password != form.confirmPassword then e[ConfirmPassword := Mismatch]
             else e;
    FormCheck(e, |e| == 0)
  }

  /** `handleInputChange(field, value)`: the field takes the value, and an error
      already shown for that field is blanked; nothing else changes. */
  function HandleInputChange(st: PageState, field: Field, value: string): (r: PageState)
    ensures r.form.Get(field) == value
    ensures forall g :: g != field ==> r.form.Get(g) == st.form.Get(g)
    ensures r.errors.Keys == st.errors.Keys
    ensures field in st.errors ==> r.errors[field] == ""
    ensures forall g :: g in st.errors && g != field ==> r.errors[g] == st.errors[g]
  {
    var errors := if field in st.errors && st.errors[field] != "" then st.errors[field := ""] else st.errors;
    PageState(st.form.Set(field, value), errors)
  }

  /** A sign-in form the page accepts passes the context's own checks, so
      submitting it reaches the auth service. */
  lemma AcceptedSignInReachesBackend(form: Form, reply: AuthReply)
    requires ValidateForm(form, false).ok
    ensures AuthContext.SignIn(form.email, form.password, reply).submitted.Some?
  {
    assert Email !in ValidateForm(form, false).errors;
    assert PasswordField !in ValidateForm(form, false).errors;
  }

  /** An accepted sign-up form agrees on its passwords and has a name. */
  lemma AcceptedSignUpShape(form: Form)
    requires ValidateForm(form, true).ok
    ensures InEmailLanguage(form.email)
    ensures |form.password| >= 6 && form.confirmPassword == form.password
    ensures !IsBlank(form.fullName)
  {
    var c := ValidateForm(form, true);
    assert Email !in c.errors && PasswordField !in c.errors;
    assert FullName !in c.errors && ConfirmPassword !in c.errors;
  }

  /** The page's six-character rule is weaker than the context's: a form the
      page accepts for sign-up can still be refused by the context. */
  lemma PageAcceptsWeakSignUp(reply: AuthReply)
    ensures ValidateForm(Form("a@b.c", "abcdef", "A", "abcdef"), true).ok
    ensures AuthContext.SignUp("a@b.c", "abcdef", reply).submitted.None?
  {
    ShortAddressAccepted();
    assert !IsWhitespace("A"[0]);
  }
}

=== FILE: auth_service.dfy ===
/** `src/services/authService.ts`: `AuthService.signUp` and `signIn`, which
    normalise the email, validate, submit, and map every failure to a typed
    error instead of throwing. */
module AuthService {
  import opened Text
  import opened Password
  import opened Sanitize
  import opened Backend

  datatype ErrorKind = Validation | AuthFailure | Network

  datatype AuthError = AuthError(message: string, kind: ErrorKind)

  datatype AuthResult = AuthResult(success: bool, error: Option<AuthError>)

  /** A call's result together with the credentials it submitted, if any. */
  datatype ServiceCall = ServiceCall(result: AuthResult, submitted: Option<Credentials>)

  const InvalidEmail := "Please enter a valid email address"
  const NetworkError := "Network error. Please try again."
  const AlreadyExists := "An account with this email may already exist"
  const CheckCredentials := "Please check your email and password"
  const RegistrationFailed := "An error occurred during registration"
  const SignInFailed := "Invalid email or password"

  /** `sanitizeInput(email.trim().toLowerCase(), 254)`. */
  function NormalizeEmail(email: string): (r: string)
    ensures |r| <= 254 && |r| <= |email|
    ensures IsSubsequence(r, Lower(Trim(email)))
    ensures forall k :: 0 <= k < |r| ==> !IsUpper(r[k])
    ensures NoOpenBeforeClose(r)
    // the cleaned, trimmed, lower-cased address, cut to 254 characters
    ensures |r| == (if |Cleaned(Lower(Trim(email)))| <= 254 then |Cleaned(Lower(Trim(email)))| else 254)
    ensures r == Cleaned(Lower(Trim(email)))[..|r|]
  {
    var l := Lower(Trim(email));
    var r := SanitizeInput(l, Some(254));
    SubsequenceChars(r, l);
    SubsequenceLength(r, l);
    SubsequenceLength(Trim(email), email);
    r
  }

  /** Surrounding whitespace never changes the submitted address. */
  lemma NormalizeIgnoresSurroundingSpace(email: string)
    ensures NormalizeEmail(Trim(email)) == NormalizeEmail(email)
  {
    assert Trim(Trim(email)) == Trim(email);
  }

  /** An address that is already trimmed, lower-case, at most 254 characters
      long and free of `<`, `:` and `=` is submitted exactly as typed. */
  lemma PlainAddressUnchanged(email: string)
    requires |email| <= 254 && IsTrimmed(email) && HasNoMarkup(email)
    requires forall k :: 0 <= k < |email| ==> !IsUpper(email[k])
    ensures NormalizeEmail(email) == email
  {
    assert Lower(email) == email;
    CleanedKeepsPlain(email);
  }

  /** So such an address, if valid, reaches the backend unchanged on sign-in. */
  lemma PlainAddressSignsIn(email: string, password: string, reply: AuthReply)
    requires |email| <= 254 && IsTrimmed(email) && HasNoMarkup(email)
    requires forall k :: 0 <= k < |email| ==> !IsUpper(email[k])
    requires ValidateEmail(email) && |password| > 0
    ensures SignIn(email, password, reply).submitted == Some(Credentials(email, password))
  {
    PlainAddressUnchanged(email);
  }

  /** The message for a sign-up error: generic texts only, with
      `already registered` taking precedence over `invalid`. */
  function SignUpMessage(backendMessage: string): (m: string)
    ensures m in {AlreadyExists, CheckCredentials, RegistrationFailed}
    ensures m == AlreadyExists <==> Contains(backendMessage, "already registered")
    ensures m == CheckCredentials <==>
      !Contains(backendMessage, "already registered") && Contains(backendMessage, "invalid")
  {
    if Contains(backendMessage, "already registered") then AlreadyExists
    else if Contains(backendMessage, "invalid") then CheckCredentials
    else RegistrationFailed
  }

  function Fail(message: string, kind: ErrorKind): AuthResult {
    AuthResult(false, Some(AuthError(message, kind)))
  }

  /** The backend half: success, an `auth` error with the given message, or a
      `network` error for a thrown exception. */
  function Submitted(reply: AuthReply, creds: Credentials, authMessage: string -> string): (c: ServiceCall)
    ensures c.submitted == Some(creds)
    ensures c.result.success <==> reply.NoError?
    ensures c.result.success <==> c.result.error.None?
    ensures reply.ErrorReply? ==> c.result.error == Some(AuthError(authMessage(reply.message), AuthFailure))
    ensures reply.Exception? ==> c.result.error == Some(AuthError(NetworkError, Network))
  {
    match reply
    case NoError => ServiceCall(AuthResult(true, None), Some(creds))
    case ErrorReply(m) => ServiceCall(Fail(authMessage(m), AuthFailure), Some(creds))
    case Exception(_) => ServiceCall(Fail(NetworkError, Network), Some(creds))
  }

  /** `AuthService.signUp`. */
  function SignUp(email: string, password: string, reply: AuthReply): (c: ServiceCall)
    // validation decides whether the backend is reached; the normalised email
    // and the untouched password are what is sent
    ensures c.submitted.Some? <==> ValidateEmail(NormalizeEmail(email)) && Validate(password).isValid
    ensures c.submitted.Some? ==> c.submitted.value == Credentials(NormalizeEmail(email), password)
    // exactly one of success and an error
    ensures c.result.success <==> c.result.error.None?
    ensures c.result.success <==> c.submitted.Some? && reply.NoError?
    // validation failures are typed as such, and only they are
    ensures c.result.error.Some? && c.result.error.value.kind == Validation <==> c.submitted.None?
    ensures !ValidateEmail(NormalizeEmail(email)) ==> c.result == Fail(InvalidEmail, Validation)
    ensures ValidateEmail(NormalizeEmail(email)) && !Validate(password).isValid ==>
      c.result == Fail(Join(Validate(password).Errors(), ". "), Validation)
    // backend errors are mapped to generic messages; exceptions to a network error
    ensures c.submitted.Some? && reply.ErrorReply? ==>
      c.result == Fail(SignUpMessage(reply.message), AuthFailure)
    ensures c.submitted.Some? && reply.Exception? ==> c.result == Fail(NetworkError, Network)
  {
    var e := NormalizeEmail(email);
    if !ValidateEmail(e) then ServiceCall(Fail(InvalidEmail, Validation), None)
    else
      var check := Validate(password);
      if !check.isValid then ServiceCall(Fail(Join(check.Errors(), ". "), Validation), None)
      else Submitted(reply, Credentials(e, password), SignUpMessage)
  }

  /** `AuthService.signIn`: as sign-up, but the password need only be non-empty
      and every backend error reads the same. */
  function SignIn(email: string, password: string, reply: AuthReply): (c: ServiceCall)
    ensures c.submitted.Some? <==> ValidateEmail(NormalizeEmail(email)) && |password| > 0
    ensures c.submitted.Some? ==> c.submitted.value == Credentials(NormalizeEmail(email), password)
    ensures c.result.success <==> c.result.error.None?
    ensures c.result.success <==> c.submitted.Some? && reply.NoError?
    ensures c.result.error.Some? && c.result.error.value.kind == Validation <==> c.submitted.None?
    ensures !ValidateEmail(NormalizeEmail(email)) ==> c.result == Fail(InvalidEmail, Validation)
    ensures ValidateEmail(NormalizeEmail(email)) && |password| == 0 ==>
      c.result == Fail("Password is required", Validation)
    ensures c.submitted.Some? && reply.ErrorReply? ==> c.result == Fail(SignInFailed, AuthFailure)
    ensures c.submitted.Some? && reply.Exception? ==> c.result == Fail(NetworkError, Network)
  {
    var e := NormalizeEmail(email);
    if !ValidateEmail(e) then ServiceCall(Fail(InvalidEmail, Validation), None)
    else if |password| == 0 then ServiceCall(Fail("Password is required", Validation), None)
    else Submitted(reply, Credentials(e, password), _ => SignInFailed)
  }
}

=== FILE: backend.dfy ===
/** The hosted backend as the dashboard code sees it: tables as sequences of
    rows, `.maybeSingle()` lookups, newest-first ordering, and the audit events
    of the `log_security_event` remote procedure. */
module Backend {
  import opened Text

  /** A row of the `user_devices` table. */
  datatype UserDevice = UserDevice(
    userId: string, deviceId: string, deviceName: string, deviceType: string, isActive: bool)

  /** An audit record handed to `log_security_event`; only string-valued details are kept. */
  datatype SecurityEvent = SecurityEvent(
    action: string, deviceId: string, success: bool, details: map<string, string>)

  /** The answer of a `.maybeSingle()` query. */
  datatype Single<T> = MultipleRows | NoRow | OneRow(row: T)

  /** `.maybeSingle()`: no row gives null data, one row gives the row, and more
      than one row is reported as an error. */
  function MaybeSingle<T>(rows: seq<T>): (r: Single<T>)
    ensures r.NoRow? <==> |rows| == 0
    ensures r.OneRow? <==> |rows| == 1
    ensures r.OneRow? ==> r.row == rows[0]
    ensures r.MultipleRows? <==> |rows| > 1
  {
    if |rows| == 0 then NoRow
    else if |rows| == 1 then OneRow(rows[0])
    else MultipleRows
  }

  /** `.eq(...)` filters: the rows satisfying `keep`, in table order. */
  function Filter<T(==,!new)>(rows: seq<T>, keep: T -> bool): (r: seq<T>)
    ensures forall x :: x in r <==> x in rows && keep(x)
    ensures forall i :: 0 <= i < |r| ==> keep(r[i])
    ensures |r| <= |rows|
    ensures multiset(r) <= multiset(rows)
    // every kept row with all its copies, and nothing else
    ensures forall x :: multiset(r)[x] == if keep(x) then multiset(rows)[x] else 0
    decreases |rows|
  {
    if |rows| == 0 then []
    else
      var rest := Filter(rows[1..], keep);
      assert rows == [rows[0]] + rows[1..];
      assert multiset(rows) == multiset{rows[0]} + multiset(rows[1..]);
      if keep(rows[0]) then [rows[0]] + rest else rest
  }

  /** Ordered by `created_at`, newest first. */
  predicate NewestFirst<T>(rows: seq<T>, createdAt: T -> int) {
    forall i, j :: 0 <= i < j < |rows| ==> createdAt(rows[i]) >= createdAt(rows[j])
  }

  function InsertNewestFirst<T>(x: T, sorted: seq<T>, createdAt: T -> int): (r: seq<T>)
    requires NewestFirst(sorted, createdAt)
    ensures NewestFirst(r, createdAt)
    ensures multiset(r) == multiset(sorted) + multiset{x}
    decreases |sorted|
  {
    if |sorted| == 0 then [x]
    else if createdAt(x) >= createdAt(sorted[0]) then [x] + sorted
    else
      var rest := InsertNewestFirst(x, sorted[1..], createdAt);
      assert sorted == [sorted[0]] + sorted[1..];
      forall k | 0 <= k < |rest| ensures createdAt(sorted[0]) >= createdAt(rest[k]) {
        assert rest[k] in multiset(rest);
        if rest[k] != x {
          assert rest[k] in multiset(sorted[1..]);
          var m :| 0 <= m < |sorted[1..]| && sorted[1..][m] == rest[k];
          assert sorted[m + 1] == rest[k];
        }
      }
      [sorted[0]] + rest
  }

  /** `.order('created_at', { ascending: false })`: the same rows, newest first. */
  function SortNewestFirst<T>(rows: seq<T>, createdAt: T -> int): (r: seq<T>)
    ensures NewestFirst(r, createdAt)
    ensures multiset(r) == multiset(rows)
    decreases |rows|
  {
    if |rows| == 0 then []
    else
      assert rows == [rows[0]] + rows[1..];
      InsertNewestFirst(rows[0], SortNewestFirst(rows[1..], createdAt), createdAt)
  }

  /** Sorting keeps the rows, so also their number and membership. */
  lemma SortKeepsRows<T>(rows: seq<T>, createdAt: T -> int)
    ensures |SortNewestFirst(rows, createdAt)| == |rows|
    ensures forall x :: x in SortNewestFirst(rows, createdAt) <==> x in rows
  {
    var r := SortNewestFirst(rows, createdAt);
    assert |r| == |multiset(r)| == |multiset(rows)| == |rows|;
    forall x ensures x in r <==> x in rows {
      assert x in r <==> x in multiset(r);
      assert x in rows <==> x in multiset(rows);
    }
  }

  /** A prefix of a newest-first list is newest first. */
  lemma PrefixNewestFirst<T>(rows: seq<T>, n: nat, createdAt: T -> int)
    requires NewestFirst(rows, createdAt) && n <= |rows|
    ensures NewestFirst(rows[..n], createdAt)
  {
    forall i, j | 0 <= i < j < n ensures createdAt(rows[..n][i]) >= createdAt(rows[..n][j]) {
      assert rows[..n][i] == rows[i] && rows[..n][j] == rows[j];
    }
  }

  /** The first `n` rows of a newest-first list are the newest ones: no row left
      out is newer than a row kept. */
  lemma PrefixHoldsNewest<T>(rows: seq<T>, n: nat, createdAt: T -> int)
    requires NewestFirst(rows, createdAt) && n <= |rows|
    ensures forall x, y :: x in rows && x !in rows[..n] && y in rows[..n] ==> createdAt(x) <= createdAt(y)
    ensures multiset(rows[..n]) <= multiset(rows)
  {
    forall x, y | x in rows && x !in rows[..n] && y in rows[..n]
      ensures createdAt(x) <= createdAt(y)
    {
      var i :| 0 <= i < |rows| && rows[i] == x;
      var j :| 0 <= j < n && rows[..n][j] == y;
      assert rows[j] == y;
      assert forall k :: 0 <= k < n ==> rows[..n][k] == rows[k];
    }
    assert rows == rows[..n] + rows[n..];
  }

  /** `.limit(n)`: the first `n` rows. */
  function Limit<T>(rows: seq<T>, n: nat): (r: seq<T>)
    ensures |r| == if |rows| < n then |rows| else n
    ensures r == rows[..|r|]
  {
    if |rows| < n then rows else rows[..n]
  }

  /** The outcome of a write (`insert`, `upsert`, `update`): whether the backend
      reported an error, and the values the database fills in itself. */
  datatype WriteReply = WriteReply(ok: bool, now: int, newId: string)

  /** What the hosted auth service answers to a sign-up, sign-in or sign-out:
      no error, an error object carrying a message, or a thrown exception. */
  datatype AuthReply = NoError | ErrorReply(message: string) | Exception(message: string)

  /** The email and password handed to the auth service. */
  datatype Credentials = Credentials(email: string, password: string)
}

=== FILE: camera_stream.dfy ===
/** The `secure-camera-stream` edge function
    (`supabase/functions/secure-camera-stream/index.ts`): a decision table from
    a request and the backend's answers to an HTTP status, with the audit
    events written on the way. */
module CameraStream {
  import opened Text
  import opened Backend

  /** The parts of the incoming request the handler reads: its HTTP method
      (`verb`) and three headers.  A header lookup gives `None` when absent. */
  datatype Request = Request(
    verb: string, authorization: Option<string>, forwardedFor: Option<string>, userAgent: Option<string>)

  /** What the backend would answer: whether a client can be created at all
      (creating one with an empty URL or key throws), which access tokens
      belong to which user, whether the ownership query succeeds, and the
      `user_devices` table. */
  datatype Env = Env(
    clientConfigured: bool, sessions: map<string, string>, devicesReachable: bool, devices: seq<UserDevice>)

  datatype Body = PlainOk | ErrorJson(error: string) | StreamAuthorized(deviceName: string)

  datatype Response = Response(status: int, body: Body, headers: map<string, string>)

  /** The outcome of one request, with what it logged and the tokens it asked
      the auth service about. */
  datatype Handled = Handled(response: Response, events: seq<SecurityEvent>, tokensChecked: seq<string>)

  const CorsHeaders: map<string, string> := map[
    "Access-Control-Allow-Origin" := "*",
    "Access-Control-Allow-Headers" := "authorization, x-client-info, apikey, content-type"
  ]

  const JsonHeaders: map<string, string> := CorsHeaders["Content-Type" := "application/json"]

  const CameraId := "camera_001"

  /** `header || 'unknown'`: absent and empty headers both read as unknown. */
  function OrUnknown(h: Option<string>): (r: string)
    ensures h.Some? && h.value != "" ==> r == h.value
    ensures h.None? || h == Some("") ==> r == "unknown"
  {
    if h.Some? && h.value != "" then h.value else "unknown"
  }

  /** `authHeader.replace('Bearer ', '')`: the first occurrence of `Bearer `
      is removed, wherever it is. */
  function BearerToken(header: string): (token: string)
    ensures OccursAt(header, "Bearer ", 0) ==> token == header[7..]
    ensures !Contains(header, "Bearer ") ==> token == header
    // the first occurrence is cut out, wherever it is
    ensures forall i: nat ::
      OccursAt(header, "Bearer ", i) && (forall k: nat :: k < i ==> !OccursAt(header, "Bearer ", k)) ==>
        token == header[..i] + header[i + 7..]
    ensures Contains(header, "Bearer ") ==> |token| == |header| - 7
  {
    ReplaceFirst(header, "Bearer ", "")
  }

  /** Whatever token a client sends as `Bearer <token>`, exactly that token
      reaches the auth service. */
  lemma BearerRoundTrip(token: string)
    ensures BearerToken("Bearer " + token) == token
  {
    var h := "Bearer " + token;
    assert h[..7] == "Bearer ";
    assert OccursAt(h, "Bearer ", 0);
    assert h[7..] == token;
  }

  /** The usual header loses its scheme prefix. */
  lemma BearerPrefixRemoved()
    ensures BearerToken("Bearer abc") == "abc"
  {
    assert OccursAt("Bearer abc", "Bearer ", 0);
  }

  /** The removed occurrence need not be a prefix: it is cut out of the middle. */
  lemma BearerRemovedFromMiddle()
    ensures BearerToken("xBearer y") == "xy"
  {
    var h := "xBearer y";
    assert !OccursAt(h, "Bearer ", 0) by { assert h[0] == 'x'; }
    assert OccursAt(h, "Bearer ", 1) by { assert h[1..8] == "Bearer "; }
    assert h[..1] + h[8..] == "xy";
  }

  /** The ownership query: an active `camera_001` row of type camera for this user. */
  function CameraRows(env: Env, userId: string): seq<UserDevice> {
    Filter(env.devices, (r: UserDevice) =>
      r.deviceId == CameraId && r.userId == userId && r.deviceType == "camera" && r.isActive)
  }

  predicate HasAuthHeader(req: Request) {
    req.authorization.Some? && req.authorization.value != ""
  }

  /** The user the auth service reports for the request's token, if any. */
  predicate Authenticates(req: Request, env: Env) {
    HasAuthHeader(req) && BearerToken(req.authorization.value) in env.sessions
  }

  /** The request handler. */
  function Handle(req: Request, env: Env): (h: Handled)
    // every response carries the CORS headers
    ensures CorsHeaders.Keys <= h.response.headers.Keys
    ensures forall k :: k in CorsHeaders ==> h.response.headers[k] == CorsHeaders[k]
    // preflight: always 200 'ok', whatever else the request carries
    ensures req.verb == "OPTIONS" ==>
      h == Handled(Response(200, PlainOk, CorsHeaders), [], [])
    // no header: 401 without asking the backend or logging
    ensures req.verb != "OPTIONS" && !HasAuthHeader(req) ==>
      h.response.status == 401 && h.events == [] && h.tokensChecked == []
    // the token handed to the auth service is the header minus `Bearer `
    ensures forall t :: t in h.tokensChecked ==> t == BearerToken(req.authorization.value)
    ensures |h.tokensChecked| <= 1
    // the status is one of the table's
    ensures h.response.status in {200, 401, 403, 500}
    // 500: exactly when the backend client cannot be created
    ensures h.response.status == 500 <==>
      req.verb != "OPTIONS" && HasAuthHeader(req) && !env.clientConfigured
    ensures h.response.status == 500 ==> h.response.body == ErrorJson("Internal server error")
    // 401 after authentication failed: exactly one unauthorized event
    ensures (req.verb != "OPTIONS" && HasAuthHeader(req) && env.clientConfigured
             && !Authenticates(req, env)) ==>
      h.response.status == 401 && |h.events| == 1
      && h.events[0] == SecurityEvent("unauthorized_camera_access", CameraId, false,
           map["ip" := OrUnknown(req.forwardedFor), "user_agent" := OrUnknown(req.userAgent)])
    // 403: an authenticated user whose ownership query fails, or finds no
    // single active camera row
    ensures h.response.status == 403 <==>
      req.verb != "OPTIONS" && env.clientConfigured && Authenticates(req, env)
      && (!env.devicesReachable || |CameraRows(env, env.sessions[BearerToken(req.authorization.value)])| != 1)
    ensures h.response.status == 403 ==>
      |h.events| == 1 && h.events[0].action == "unauthorized_camera_device_access" && !h.events[0].success
    // 200 for a real request: both checks passed and one success event
    ensures h.response.status == 200 && req.verb != "OPTIONS" ==>
      env.clientConfigured && Authenticates(req, env) && env.devicesReachable
      && |CameraRows(env, env.sessions[BearerToken(req.authorization.value)])| == 1
      && |h.events| == 1 && h.events[0].action == "camera_stream_accessed" && h.events[0].success
      && h.response.body
         == StreamAuthorized(CameraRows(env, env.sessions[BearerToken(req.authorization.value)])[0].deviceName)
    // only a granted stream logs a successful event
    ensures forall e :: e in h.events && e.success ==> h.response.status == 200
  {
    if req.verb == "OPTIONS" then
      Handled(Response(200, PlainOk, CorsHeaders), [], [])
    else if !HasAuthHeader(req) then
      Handled(Response(401, ErrorJson("Missing authorization header"), JsonHeaders), [], [])
    else if !env.clientConfigured then
      Handled(Response(500, ErrorJson("Internal server error"), JsonHeaders), [], [])
    else
      var token := BearerToken(req.authorization.value);
      if token !in env.sessions then
        var denied := SecurityEvent("unauthorized_camera_access", CameraId, false,
          map["ip" := OrUnknown(req.forwardedFor), "user_agent" := OrUnknown(req.userAgent)]);
        Handled(Response(401, ErrorJson("Unauthorized access to camera stream"), JsonHeaders), [denied], [token])
      else
        var userId := env.sessions[token];
        // only `data` is read: a failed query leaves it null, like a missing row
        var found := if env.devicesReachable then MaybeSingle(CameraRows(env, userId)) else NoRow;
        match found
        case OneRow(device) =>
          var granted := SecurityEvent("camera_stream_accessed", CameraId, true,
            map["device_name" := device.deviceName, "user_id" := userId]);
          Handled(Response(200, StreamAuthorized(device.deviceName), JsonHeaders), [granted], [token])
        case _ =>
          var refused := SecurityEvent("unauthorized_camera_device_access", CameraId, false,
            map["user_id" := userId, "reason" := "device_not_owned_or_inactive"]);
          Handled(Response(403, ErrorJson("Access denied: Camera not found or inactive"), JsonHeaders),
            [refused], [token])
  }

  /** A user who owns the one active camera is still refused when the
      ownership query fails, because its error is never read. */
  lemma FailedQueryDeniesOwner(req: Request, env: Env)
    requires req.verb != "OPTIONS" && env.clientConfigured && Authenticates(req, env)
    requires |CameraRows(env, env.sessions[BearerToken(req.authorization.value)])| == 1
    requires !env.devicesReachable
    ensures Handle(req, env).response.status == 403
    ensures Handle(req, env.(devicesReachable := true)).response.status == 200
  {
  }
}

=== FILE: device_controls.dfy ===
/** `src/components/DeviceControls.tsx`: the four fixed devices, the state
    read off the settings list, and the single and all-device toggles, which
    write through the device-settings store and log to the system-log store. */
module DeviceControls {
  import opened Text
  import opened Backend
  import opened DeviceSettings
  import opened SystemLogs

  /** The names of the four configured devices, in list order (their types,
      icons and colours only affect rendering). */
  const DeviceNames: seq<string> := ["Living Room Lights", "Smart TV", "Coffee Maker", "WiFi Router"]

  /** A request the panel sends to the backend. */
  datatype Request = SettingWrite(name: string, isActive: bool) | LogInsert(logType: string, title: string, message: string)

  /** The panel's view of the world: the signed-in user, the two stores, and
      every request sent so far. */
  datatype Panel = Panel(user: Option<string>, settings: Store, logs: LogStore, sent: seq<Request>)

  /** `getDeviceState(name)`: `is_active` of the first shown setting with that
      name, or off when there is none. */
  function GetDeviceState(shown: seq<DeviceSetting>, name: string): (on: bool)
    ensures (forall i :: 0 <= i < |shown| ==> shown[i].deviceName != name) ==> !on
    ensures forall i :: 0 <= i < |shown| && shown[i].deviceName == name ==>
      (forall j :: 0 <= j < i ==> shown[j].deviceName != name) ==> on == shown[i].isActive
  {
    if |shown| == 0 then false
    else if shown[0].deviceName == name then shown[0].isActive
    else GetDeviceState(shown[1..], name)
  }

  /** When every shown row with the name carries the same state and one exists,
      that is the displayed state. */
  lemma {:induction false} DisplayedState(shown: seq<DeviceSetting>, name: string, on: bool)
    requires exists i :: 0 <= i < |shown| && shown[i].deviceName == name
    requires forall x :: x in shown && x.deviceName == name ==> x.isActive == on
    ensures GetDeviceState(shown, name) == on
  {
    if shown[0].deviceName != name {
      var i :| 0 <= i < |shown| && shown[i].deviceName == name;
      assert shown[1..][i - 1] == shown[i];
      DisplayedState(shown[1..], name, on);
    }
  }

  /** Every row of the table with the user's key for `name` has state `on`, and
      there is such a row. */
  predicate IsSet(t: seq<DeviceSetting>, userId: string, name: string, on: bool) {
    HasKey(t, (userId, name)) && forall x :: x in t && Key(x) == (userId, name) ==> x.isActive == on
  }

  /** A set device shows as set in the user's refreshed list. */
  lemma ShownAsSet(st: Store, userId: string, name: string, on: bool)
    requires IsSet(st.table, userId, name, on)
    requires forall x :: x in st.shown <==> x in st.table && x.userId == userId
    ensures GetDeviceState(st.shown, name) == on
  {
    var i :| 0 <= i < |st.table| && Key(st.table[i]) == (userId, name);
    assert st.table[i] in st.shown;
    DisplayedState(st.shown, name, on);
  }

  /** `updateDeviceSetting(name, isActive)` as the panel calls it, recording the upsert it sends. */
  function Update(p: Panel, name: string, isActive: bool, reply: WriteReply): (q: Panel)
    ensures q.user == p.user && q.logs == p.logs
    ensures q.sent == p.sent + (if SendsUpsert(p.user, name) then [SettingWrite(Trim(name), isActive)] else [])
    ensures UniqueKeys(p.settings.table) ==> UniqueKeys(q.settings.table)
    ensures SendsUpsert(p.user, name) && reply.ok ==> IsSet(q.settings.table, p.user.value, Trim(name), isActive)
    ensures SendsUpsert(p.user, name) && reply.ok ==>
      forall x :: x in q.settings.shown <==> x in q.settings.table && x.userId == p.user.value
  {
    var settings := UpdateDeviceSetting(p.user, p.settings, name, isActive, None, reply);
    var sent := if SendsUpsert(p.user, name) then [SettingWrite(Trim(name), isActive)] else [];
    Panel(p.user, settings, p.logs, p.sent + sent)
  }

  /** A device set under another key stays set. */
  lemma UpdateKeepsSet(p: Panel, name: string, isActive: bool, reply: WriteReply, u: string, n: string, on: bool)
    requires IsSet(p.settings.table, u, n, on)
    requires p.user != Some(u) || n != Trim(name)
    ensures IsSet(Update(p, name, isActive, reply).settings.table, u, n, on)
  {
    var q := Update(p, name, isActive, reply);
    if SendsUpsert(p.user, name) && reply.ok {
      var i :| 0 <= i < |p.settings.table| && Key(p.settings.table[i]) == (u, n);
      assert p.settings.table[i] in q.settings.table;
    }
  }

  /** `addLog('device_control', title, message)` as the panel calls it. */
  function Log(p: Panel, title: string, message: string, reply: WriteReply): (q: Panel)
    requires !IsBlank(title)
    ensures q.user == p.user && q.settings == p.settings
    ensures q.sent == p.sent + (if p.user.Some? then [LogInsert("device_control", title, message)] else [])
    // the log store is that of `addLog`
    ensures q.logs == AddLog(p.user, p.logs, "device_control", title, Some(message), None, reply)
    ensures p.user.None? || !reply.ok ==> q.logs == p.logs
    // signed in and inserted: exactly one new `device_control` row, after the old ones
    ensures p.user.Some? && reply.ok ==>
      && |q.logs.table| == |p.logs.table| + 1
      && q.logs.table[..|p.logs.table|] == p.logs.table
      && q.logs.table[|p.logs.table|].userId == p.user.value
      && q.logs.table[|p.logs.table|].logType == "device_control"
      && q.logs.table[|p.logs.table|].title == Trim(title)
      && q.logs.table[|p.logs.table|].message == Trim(message)
  {
    assert !IsWhitespace("device_control"[0]);
    assert IsTrimmed("device_control") by {
      assert !IsWhitespace("device_control"[|"device_control"| - 1]);
    }
    var logs := AddLog(p.user, p.logs, "device_control", title, Some(message), None, reply);
    var sent := if p.user.Some? then [LogInsert("device_control", title, message)] else [];
    Panel(p.user, p.settings, logs, p.sent + sent)
  }

  function OnOff(on: bool): string { if on then "on" else "off" }

  /** `name` followed by ` On` or ` Off` is never blank. */
  lemma TitleNotBlank(name: string, word: string)
    requires |word| > 0 && !IsWhitespace(word[|word| - 1])
    ensures !IsBlank(name + " " + word)
  {
    var t := name + " " + word;
    assert t[|t| - 1] == word[|word| - 1];
  }

  /** `toggleDevice(name)`: write the negation of the shown state, then log it
      (the log is attempted whether or not the write succeeded). */
  function ToggleDevice(p: Panel, name: string, writeReply: WriteReply, logReply: WriteReply): (q: Panel)
    ensures q.user == p.user
    ensures var on := !GetDeviceState(p.settings.shown, name);
      var word := if on then "On" else "Off";
      q.sent == p.sent
        + (if SendsUpsert(p.user, name) then [SettingWrite(Trim(name), on)] else [])
        + (if p.user.Some? then [LogInsert("device_control", name + " " + word, "Device has been turned " + OnOff(on))] else [])
    // the log store gains the toggle's entry, whether or not the write succeeded
    ensures var on := !GetDeviceState(p.settings.shown, name);
      var word := if on then "On" else "Off";
      q.logs == AddLog(p.user, p.logs, "device_control", name + " " + word,
        Some("Device has been turned " + OnOff(on)), None, logReply)
    ensures p.user.Some? && logReply.ok ==>
      var word := if GetDeviceState(p.settings.shown, name) then "Off" else "On";
      && |q.logs.table| == |p.logs.table| + 1
      && q.logs.table[..|p.logs.table|] == p.logs.table
      && q.logs.table[|p.logs.table|].logType == "device_control"
      && q.logs.table[|p.logs.table|].title == Trim(name + " " + word)
    // a trimmed name whose write succeeds now shows the opposite state
    ensures SendsUpsert(p.user, name) && writeReply.ok && IsTrimmed(name) ==>
      GetDeviceState(q.settings.shown, name) == !GetDeviceState(p.settings.shown, name)
  {
    var on := !GetDeviceState(p.settings.shown, name);
    var p1 := Update(p, name, on, writeReply);
    var word := if on then "On" else "Off";
    TitleNotBlank(name, word);
    assert SendsUpsert(p.user, name) && writeReply.ok && IsTrimmed(name) ==>
      GetDeviceState(p1.settings.shown, name) == on by {
      if SendsUpsert(p.user, name) && writeReply.ok && IsTrimmed(name) {
        ShownAsSet(p1.settings, p.user.value, name, on);
      }
    }
    Log(p1, name + " " + word, "Device has been turned " + OnOff(on), logReply)
  }

  /** Names the panel can write under as they are: trimmed, not blank, distinct. */
  predicate WellFormedNames(names: seq<string>) {
    && (forall i :: 0 <= i < |names| ==> IsTrimmed(names[i]) && !IsBlank(names[i]))
    && (forall i, j :: 0 <= i < j < |names| ==> names[i] != names[j])
  }

  /** The upserts sent for `names` from index `k` on, in list order. */
  function WritesFrom(names: seq<string>, k: nat, on: bool): (w: seq<Request>)
    requires k <= |names|
    ensures |w| == |names| - k
    ensures forall i :: 0 <= i < |w| ==> w[i] == SettingWrite(names[k + i], on)
    decreases |names| - k
  {
    if k == |names| then [] else [SettingWrite(names[k], on)] + WritesFrom(names, k + 1, on)
  }

  /** `updateDeviceSetting(names[i], on)` for each `i` from `k` on, in turn;
      the `i`-th write is answered by `replies(i)`. */
  function WriteFrom(p: Panel, names: seq<string>, k: nat, on: bool, replies: nat -> WriteReply): (q: Panel)
    requires k <= |names| && WellFormedNames(names)
    requires p.user.Some?
    ensures q.user == p.user && q.logs == p.logs
    ensures q.sent == p.sent + WritesFrom(names, k, on)
    decreases |names| - k
  {
    if k == |names| then p
    else
      var p1 := Update(p, names[k], on, replies(k));
      assert p1.sent == p.sent + [SettingWrite(names[k], on)];
      WriteFrom(p1, names, k + 1, on, replies)
  }

  /** The later writes leave a device that is not among them as it was. */
  lemma {:induction false} WriteFromKeepsSet(p: Panel, names: seq<string>, k: nat, on: bool,
                                             replies: nat -> WriteReply, n: string, on': bool)
    requires k <= |names| && WellFormedNames(names) && p.user.Some?
    requires IsSet(p.settings.table, p.user.value, n, on')
    requires forall i :: k <= i < |names| ==> names[i] != n
    ensures IsSet(WriteFrom(p, names, k, on, replies).settings.table, p.user.value, n, on')
    decreases |names| - k
  {
    if k < |names| {
      var p1 := Update(p, names[k], on, replies(k));
      UpdateKeepsSet(p, names[k], on, replies(k), p.user.value, n, on');
      WriteFromKeepsSet(p1, names, k + 1, on, replies, n, on');
    }
  }

  /** When the last write succeeds, the shown list is the user's part of the table. */
  lemma {:induction false} WriteFromShown(p: Panel, names: seq<string>, k: nat, on: bool, replies: nat -> WriteReply)
    requires k < |names| && WellFormedNames(names) && p.user.Some?
    requires replies(|names| - 1).ok
    ensures forall x :: x in WriteFrom(p, names, k, on, replies).settings.shown <==>
      x in WriteFrom(p, names, k, on, replies).settings.table && x.userId == p.user.value
    decreases |names| - k
  {
    var p1 := Update(p, names[k], on, replies(k));
    if k + 1 < |names| {
      WriteFromShown(p1, names, k + 1, on, replies);
    }
  }

  /** When every write from index `k` succeeds, each of those devices is set. */
  lemma {:induction false} WriteFromSets(p: Panel, names: seq<string>, k: nat, on: bool,
                                         replies: nat -> WriteReply, j: nat)
    requires k <= j < |names| && WellFormedNames(names) && p.user.Some?
    requires forall i :: k <= i < |names| ==> replies(i).ok
    ensures IsSet(WriteFrom(p, names, k, on, replies).settings.table, p.user.value, names[j], on)
    decreases |names| - k
  {
    var p1 := Update(p, names[k], on, replies(k));
    if j == k {
      assert Trim(names[k]) == names[k];
      WriteFromKeepsSet(p1, names, k + 1, on, replies, names[k], on);
    } else {
      WriteFromSets(p1, names, k + 1, on, replies, j);
    }
  }

  /** The configured names are trimmed, not blank and distinct. */
  lemma DeviceNamesWellFormed()
    ensures WellFormedNames(DeviceNames)
  {
    forall i | 0 <= i < |DeviceNames| ensures IsTrimmed(DeviceNames[i]) && !IsBlank(DeviceNames[i]) {
      assert !IsWhitespace(DeviceNames[i][0]);
    }
  }

  lemma AllDevicesTitleNotBlank(on: bool)
    ensures !IsBlank("All devices " + OnOff(on))
    ensures Trim("All devices " + OnOff(on)) == "All devices " + OnOff(on)
  {
    var title := "All devices " + OnOff(on);
    assert title[0] == 'A';
    assert title[|title| - 1] == if on then 'n' else 'f';
  }

  /** The toggle-all handler over a list of device names: each written in
      order, then one log entry. */
  function ToggleAll(p: Panel, names: seq<string>, on: bool, replies: nat -> WriteReply, logReply: WriteReply): (q: Panel)
    requires WellFormedNames(names)
    ensures p.user.None? ==> q == p
    ensures p.user.Some? ==>
      q.sent == p.sent + WritesFrom(names, 0, on)
        + [LogInsert("device_control", "All devices " + OnOff(on), "All devices have been turned " + OnOff(on))]
    ensures p.user.Some? ==> q.settings == WriteFrom(p, names, 0, on, replies).settings
    // one log entry for the whole toggle, after all writes
    ensures p.user.Some? ==>
      q.logs == AddLog(p.user, p.logs, "device_control", "All devices " + OnOff(on),
        Some("All devices have been turned " + OnOff(on)), None, logReply)
    ensures p.user.Some? && logReply.ok ==>
      && |q.logs.table| == |p.logs.table| + 1
      && q.logs.table[..|p.logs.table|] == p.logs.table
      && q.logs.table[|p.logs.table|].logType == "device_control"
      && q.logs.table[|p.logs.table|].title == "All devices " + OnOff(on)
  {
    if p.user.None? then p
    else
      var p1 := WriteFrom(p, names, 0, on, replies);
      AllDevicesTitleNotBlank(on);
      Log(p1, "All devices " + OnOff(on), "All devices have been turned " + OnOff(on), logReply)
  }

  /** `toggleAllDevices(on)` over the four configured devices. */
  function ToggleAllDevices(p: Panel, on: bool, replies: nat -> WriteReply, logReply: WriteReply): (q: Panel)
    ensures p.user.None? ==> q == p
    ensures p.user.Some? ==>
      q.sent == p.sent + WritesFrom(DeviceNames, 0, on)
        + [LogInsert("device_control", "All devices " + OnOff(on), "All devices have been turned " + OnOff(on))]
    ensures p.user.Some? && logReply.ok ==>
      && |q.logs.table| == |p.logs.table| + 1
      && q.logs.table[..|p.logs.table|] == p.logs.table
      && q.logs.table[|p.logs.table|].logType == "device_control"
      && q.logs.table[|p.logs.table|].title == "All devices " + OnOff(on)
  {
    DeviceNamesWellFormed();
    ToggleAll(p, DeviceNames, on, replies, logReply)
  }

  /** When every write succeeds, all the named devices show the requested state. */
  lemma ToggleAllShowsState(p: Panel, names: seq<string>, on: bool, replies: nat -> WriteReply, logReply: WriteReply)
    requires WellFormedNames(names) && p.user.Some?
    requires forall i :: 0 <= i < |names| ==> replies(i).ok
    ensures forall i :: 0 <= i < |names| ==>
      GetDeviceState(ToggleAll(p, names, on, replies, logReply).settings.shown, names[i]) == on
  {
    var settings := ToggleAll(p, names, on, replies, logReply).settings;
    if |names| > 0 {
      WriteFromShown(p, names, 0, on, replies);
      forall i | 0 <= i < |names| ensures GetDeviceState(settings.shown, names[i]) == on {
        WriteFromSets(p, names, 0, on, replies, i);
        ShownAsSet(settings, p.user.value, names[i], on);
      }
    }
  }

  /** In particular, switching all four devices on or off shows each as such. */
  lemma ToggleAllDevicesShowsState(p: Panel, on: bool, replies: nat -> WriteReply, logReply: WriteReply)
    requires p.user.Some?
    requires forall i :: 0 <= i < |DeviceNames| ==> replies(i).ok
    ensures forall i :: 0 <= i < |DeviceNames| ==>
      GetDeviceState(ToggleAllDevices(p, on, replies, logReply).settings.shown, DeviceNames[i]) == on
  {
    DeviceNamesWellFormed();
    ToggleAllShowsState(p, DeviceNames, on, replies, logReply);
  }
}

=== FILE: device_settings.dfy ===
/** `src/hooks/useDeviceSettings.ts`: the `device_settings` table, the upsert
    keyed by (user, trimmed device name), and the newest-first refetch that
    replaces the hook's local list. */
module DeviceSettings {
  import opened Text
  import opened Backend

  /** A settings object; only its string-valued entries are kept. */
  type SettingsObject = map<string, string>

  datatype DeviceSetting = DeviceSetting(
    id: string, userId: string, deviceName: string, deviceType: string,
    settings: SettingsObject, isActive: bool, createdAt: int, updatedAt: int)

  /** The table as the backend holds it and the list the hook shows. */
  datatype Store = Store(table: seq<DeviceSetting>, shown: seq<DeviceSetting>)

  /** The conflict target `user_id,device_name`. */
  function Key(r: DeviceSetting): (string, string) { (r.userId, r.deviceName) }

  predicate UniqueKeys(t: seq<DeviceSetting>) {
    forall i, j :: 0 <= i < j < |t| ==> Key(t[i]) != Key(t[j])
  }

  predicate HasKey(t: seq<DeviceSetting>, k: (string, string)) {
    exists i :: 0 <= i < |t| && Key(t[i]) == k
  }

  function CreatedAt(r: DeviceSetting): int { r.createdAt }

  /** The columns the upsert writes, as they read back from the row. */
  predicate Written(r: DeviceSetting, isActive: bool, settings: SettingsObject, now: int) {
    r.deviceType == "smart_device" && r.isActive == isActive && r.settings == settings && r.updatedAt == now
  }

  /** The rows with key `k`, overwritten with the written columns. */
  function Overwrite(t: seq<DeviceSetting>, k: (string, string), isActive: bool,
                     settings: SettingsObject, now: int): (r: seq<DeviceSetting>)
    ensures |r| == |t|
    ensures forall i :: 0 <= i < |t| ==>
      r[i].id == t[i].id && r[i].createdAt == t[i].createdAt && Key(r[i]) == Key(t[i])
    ensures forall i :: 0 <= i < |t| && Key(t[i]) == k ==> Written(r[i], isActive, settings, now)
    ensures forall i :: 0 <= i < |t| && Key(t[i]) != k ==> r[i] == t[i]
  {
    seq(|t|, i requires 0 <= i < |t| =>
      if Key(t[i]) == k then t[i].(deviceType := "smart_device", isActive := isActive,
                                   settings := settings, updatedAt := now)
      else t[i])
  }

  /** Rows away from the key survive an overwrite, in both directions. */
  lemma OverwriteKeepsOthers(t: seq<DeviceSetting>, k: (string, string), isActive: bool,
                             settings: SettingsObject, now: int)
    ensures var r := Overwrite(t, k, isActive, settings, now);
      && (forall x :: x in t && Key(x) != k ==> x in r)
      && (forall x :: x in r && Key(x) != k ==> x in t)
  {
    var r := Overwrite(t, k, isActive, settings, now);
    forall x | x in t && Key(x) != k ensures x in r {
      var i :| 0 <= i < |t| && t[i] == x;
      assert r[i] == x;
    }
    forall x | x in r && Key(x) != k ensures x in t {
      var i :| 0 <= i < |r| && r[i] == x;
      assert t[i] == x;
    }
  }

  /** `upsert(..., { onConflict: 'user_id,device_name' })`: a row with the key is
      overwritten in place (keeping its id and creation time); otherwise a new
      row is appended with the database's id and time. */
  function Upsert(t: seq<DeviceSetting>, userId: string, name: string, isActive: bool,
                  settings: SettingsObject, now: int, newId: string): (r: seq<DeviceSetting>)
    ensures UniqueKeys(t) ==> UniqueKeys(r)
    ensures HasKey(r, (userId, name))
    ensures forall i :: 0 <= i < |r| && Key(r[i]) == (userId, name) ==> Written(r[i], isActive, settings, now)
    // other rows are untouched
    ensures forall x :: x in t && Key(x) != (userId, name) ==> x in r
    ensures forall x :: x in r && Key(x) != (userId, name) ==> x in t
    // an existing key keeps its rows' places, ids and creation times
    ensures HasKey(t, (userId, name)) ==>
      |r| == |t| && forall i :: 0 <= i < |t| ==>
        r[i].id == t[i].id && r[i].createdAt == t[i].createdAt && Key(r[i]) == Key(t[i])
    // a new key appends exactly one row
    ensures !HasKey(t, (userId, name)) ==>
      r == t + [DeviceSetting(newId, userId, name, "smart_device", settings, isActive, now, now)]
  {
    var k := (userId, name);
    if HasKey(t, k) then
      var r := Overwrite(t, k, isActive, settings, now);
      OverwriteKeepsOthers(t, k, isActive, settings, now);
      var j :| 0 <= j < |t| && Key(t[j]) == k;
      assert Key(r[j]) == k;
      r
    else
      var row := DeviceSetting(newId, userId, name, "smart_device", settings, isActive, now, now);
      assert Key((t + [row])[|t|]) == k;
      t + [row]
  }

  /** Writing the same values twice leaves the table as writing them once. */
  lemma UpsertIdempotent(t: seq<DeviceSetting>, userId: string, name: string, isActive: bool,
                         settings: SettingsObject, now: int, id1: string, id2: string)
    ensures var once := Upsert(t, userId, name, isActive, settings, now, id1);
      Upsert(once, userId, name, isActive, settings, now, id2) == once
  {
    var once := Upsert(t, userId, name, isActive, settings, now, id1);
    var twice := Upsert(once, userId, name, isActive, settings, now, id2);
    assert |twice| == |once|;
    forall i | 0 <= i < |once| ensures twice[i] == once[i] {
      if Key(once[i]) == (userId, name) {
        assert Written(once[i], isActive, settings, now);
        assert Written(twice[i], isActive, settings, now);
        assert twice[i].id == once[i].id && twice[i].createdAt == once[i].createdAt;
        assert Key(twice[i]) == Key(once[i]);
      } else {
        assert twice[i] == once[i];
      }
    }
  }

  /** `select('*').order('created_at', { ascending: false })` under row-level
      security: the user's own rows, newest first. */
  function Fetch(t: seq<DeviceSetting>, userId: string): (r: seq<DeviceSetting>)
    ensures forall x :: x in r <==> x in t && x.userId == userId
    // each of the user's rows as often as the table holds it, and no other row
    ensures forall x :: multiset(r)[x] == if x.userId == userId then multiset(t)[x] else 0
    ensures NewestFirst(r, CreatedAt)
    ensures |r| <= |t|
  {
    var mine := Filter(t, (x: DeviceSetting) => x.userId == userId);
    var r := SortNewestFirst(mine, CreatedAt);
    assert multiset(r) == multiset(mine);
    assert forall x :: x in r <==> x in mine by {
      forall x ensures x in r <==> x in mine {
        assert x in r <==> x in multiset(r);
      }
    }
    assert |r| == |multiset(r)|;
    r
  }

  /** `fetchDeviceSettings`: on an error the shown list is left as it was. */
  function FetchDeviceSettings(st: Store, userId: string, ok: bool): (r: Store)
    ensures r.table == st.table
    ensures !ok ==> r == st
    ensures ok ==> forall x :: x in r.shown <==> x in st.table && x.userId == userId
    ensures ok ==> forall x :: multiset(r.shown)[x] == if x.userId == userId then multiset(st.table)[x] else 0
    ensures ok ==> NewestFirst(r.shown, CreatedAt)
  {
    if ok then st.(shown := Fetch(st.table, userId)) else st
  }

  /** Whether `updateDeviceSetting` gets as far as sending the upsert. */
  predicate SendsUpsert(user: Option<string>, name: string) {
    user.Some? && !IsBlank(name)
  }

  /** `settings || {}`. */
  function SettingsOrEmpty(settings: Option<SettingsObject>): SettingsObject {
    if settings.Some? then settings.value else map[]
  }

  /** `updateDeviceSetting(deviceName, isActive, settings)`.  The reply stands
      for the upsert's outcome; a successful upsert is followed by a refetch. */
  function UpdateDeviceSetting(user: Option<string>, st: Store, name: string, isActive: bool,
                               settings: Option<SettingsObject>, reply: WriteReply): (r: Store)
    // no user, a blank name or a failed write: nothing changes
    ensures !SendsUpsert(user, name) || !reply.ok ==> r == st
    ensures UniqueKeys(st.table) ==> UniqueKeys(r.table)
    // the table is upserted under the trimmed name and `settings || {}`, then refetched
    ensures SendsUpsert(user, name) && reply.ok ==>
      && r.table == Upsert(st.table, user.value, Trim(name), isActive, SettingsOrEmpty(settings), reply.now, reply.newId)
      && r.shown == Fetch(r.table, user.value)
    ensures SendsUpsert(user, name) && reply.ok ==>
      && HasKey(r.table, (user.value, Trim(name)))
      && (forall x :: x in r.table && Key(x) == (user.value, Trim(name)) ==>
            Written(x, isActive, SettingsOrEmpty(settings), reply.now))
      && (forall x :: x in st.table && Key(x) != (user.value, Trim(name)) ==> x in r.table)
      && (forall x :: x in r.table && Key(x) != (user.value, Trim(name)) ==> x in st.table)
      && (forall x :: x in r.shown <==> x in r.table && x.userId == user.value)
      && NewestFirst(r.shown, CreatedAt)
  {
    if !SendsUpsert(user, name) || !reply.ok then st
    else
      var t := Upsert(st.table, user.value, Trim(name), isActive, SettingsOrEmpty(settings), reply.now, reply.newId);
      Store(t, Fetch(t, user.value))
  }
}

=== FILE: notifications.dfy ===
/** `src/components/NotificationPanel.tsx`: the bounded list of notifications
    and the style chosen for each notification type. */
module Notifications {
  import opened Text

  /** A notification; its timestamp is only displayed, so it is left out. */
  datatype Notification = Notification(id: string, kind: string, title: string, message: string)

  /** How many old notifications survive the arrival of a new one. */
  const Kept: nat := 4

  /** `[n, ...prev.slice(0, 4)]`: the newest first, then the first four of the old list. */
  function Add(list: seq<Notification>, n: Notification): (r: seq<Notification>)
    ensures |r| == 1 + (if |list| < Kept then |list| else Kept)
    ensures |r| <= Kept + 1
    ensures r[0] == n
    ensures r[1..] == list[..|r| - 1]
  {
    [n] + (if |list| < Kept then list else list[..Kept])
  }

  /** Once full, the list stays at five entries however many arrive. */
  lemma {:induction false} AddManyStaysBounded(list: seq<Notification>, arrivals: seq<Notification>)
    requires |list| <= Kept + 1
    ensures |AddAll(list, arrivals)| <= Kept + 1
    ensures |arrivals| > 0 ==> |AddAll(list, arrivals)| > 0 && AddAll(list, arrivals)[0] == arrivals[|arrivals| - 1]
    decreases |arrivals|
  {
    if |arrivals| > 0 {
      AddManyStaysBounded(Add(list, arrivals[0]), arrivals[1..]);
    }
  }

  /** Several arrivals in turn. */
  function AddAll(list: seq<Notification>, arrivals: seq<Notification>): seq<Notification>
    decreases |arrivals|
  {
    if |arrivals| == 0 then list else AddAll(Add(list, arrivals[0]), arrivals[1..])
  }

  /** `notifications.filter(n => n.id !== id)`. */
  function Remove(list: seq<Notification>, id: string): (r: seq<Notification>)
    ensures forall x :: x in r <==> x in list && x.id != id
    // every other entry survives with all its copies
    ensures forall x :: multiset(r)[x] == if x.id != id then multiset(list)[x] else 0
    ensures |r| <= |list|
    ensures (forall i :: 0 <= i < |list| ==> list[i].id != id) ==> r == list
  {
    if |list| == 0 then []
    else
      var rest := Remove(list[1..], id);
      assert list == [list[0]] + list[1..];
      assert multiset(list) == multiset{list[0]} + multiset(list[1..]);
      if list[0].id == id then rest else [list[0]] + rest
  }

  /** Removal keeps the survivors in their original order: the result is an
      order-preserving selection of the list. */
  lemma {:induction false} RemoveKeepsOrder(list: seq<Notification>, id: string)
    ensures IsSelection(Remove(list, id), list)
    decreases |list|
  {
    if |list| > 0 {
      RemoveKeepsOrder(list[1..], id);
    }
  }

  /** `a` is `b` with some entries dropped and the rest in order. */
  predicate IsSelection(a: seq<Notification>, b: seq<Notification>)
    decreases |b|
  {
    if |a| == 0 then true
    else if |b| == 0 then false
    else (a[0] == b[0] && IsSelection(a[1..], b[1..])) || IsSelection(a, b[1..])
  }

  /** The "Clear All" button. */
  function ClearAll(list: seq<Notification>): seq<Notification> {
    []
  }

  /** After clearing, nothing is left to remove and the next arrival is alone. */
  lemma ClearAllEmpties(list: seq<Notification>, n: Notification, id: string)
    ensures |ClearAll(list)| == 0
    ensures Remove(ClearAll(list), id) == ClearAll(list)
    ensures Add(ClearAll(list), n) == [n]
  {
  }

  datatype Icon = AlertTriangle | CheckCircle | Info

  datatype Style = Style(icon: Icon, colour: string)

  /** `getIcon` and `getBorderColor`: warning and error share the warning
      triangle and differ in colour, success has its own icon; any other type
      is shown as information. */
  function StyleOf(kind: string): (s: Style)
    ensures kind == "warning" ==> s == Style(AlertTriangle, "yellow-400")
    ensures kind == "error" ==> s == Style(AlertTriangle, "red-400")
    ensures kind == "success" ==> s == Style(CheckCircle, "green-400")
    ensures kind !in {"warning", "error", "success"} ==> s == Style(Info, "blue-400")
  {
    match kind
    case "warning" => Style(AlertTriangle, "yellow-400")
    case "error" => Style(AlertTriangle, "red-400")
    case "success" => Style(CheckCircle, "green-400")
    case _ => Style(Info, "blue-400")
  }

  /** The four types the panel declares get four different colours. */
  lemma DeclaredTypesDistinguished()
    ensures var kinds := ["warning", "info", "success", "error"];
      forall i, j :: 0 <= i < j < |kinds| ==> StyleOf(kinds[i]).colour != StyleOf(kinds[j]).colour
  {
  }
}

=== FILE: password.dfy ===
/** The password strength policy of `src/utils/passwordValidation.ts` (six
    accumulated rules) and the shorter first-failure check that
    `src/contexts/AuthContext.tsx` keeps for itself. */
module Password {
  import opened Text

  /** One rule a password can break, in the order the policy checks them. */
  datatype Issue = TooShort | NoUppercase | NoLowercase | NoDigit | NoSpecial | TooCommon

  /** The characters of the class `[!@#$%^&*()_+\-=\[\]{};':"\\|,.<>\/?]`. */
  const SpecialChars: set<char> := {
    '!', '@', '#', '$', '%', '^', '&', '*', '(', ')', '_', '+', '-', '=',
    '[', ']', '{', '}', ';', '\'', ':', '"', '\\', '|', ',', '.', '<', '>', '/', '?'
  }

  const CommonPasswords: seq<string> := [
    "password", "123456", "password123", "admin", "qwerty",
    "letmein", "welcome", "123456789", "password1"
  ]

  const MinLength := 8

  predicate HasSpecial(s: string) { exists i :: 0 <= i < |s| && s[i] in SpecialChars }

  predicate IsCommon(s: string) { Lower(s) in CommonPasswords }

  /** The condition under which each rule reports its issue, stated rule by rule. */
  predicate Breaks(pw: string, issue: Issue) {
    match issue
    case TooShort => |pw| < MinLength
    case NoUppercase => !HasUpper(pw)
    case NoLowercase => !HasLower(pw)
    case NoDigit => !HasDigit(pw)
    case NoSpecial => !HasSpecial(pw)
    case TooCommon => IsCommon(pw)
  }

  /** Position of a rule in the fixed checking order. */
  function Rank(issue: Issue): nat {
    match issue
    case TooShort => 0
    case NoUppercase => 1
    case NoLowercase => 2
    case NoDigit => 3
    case NoSpecial => 4
    case TooCommon => 5
  }

  function Message(issue: Issue): string {
    match issue
    case TooShort => "Password must be at least 8 characters long"
    case NoUppercase => "Password must contain at least one uppercase letter"
    case NoLowercase => "Password must contain at least one lowercase letter"
    case NoDigit => "Password must contain at least one number"
    case NoSpecial => "Password must contain at least one special character"
    case TooCommon => "Password is too common, please choose a more secure password"
  }

  predicate StrictlyOrdered(issues: seq<Issue>) {
    forall i, j :: 0 <= i < j < |issues| ==> Rank(issues[i]) < Rank(issues[j])
  }

  datatype Report = Report(isValid: bool, issues: seq<Issue>) {
    /** The `errors` array of the result object. */
    function Errors(): (errs: seq<string>)
      ensures |errs| == |issues|
      ensures forall i :: 0 <= i < |issues| ==> errs[i] == Message(issues[i])
    {
      seq(|issues|, i requires 0 <= i < |issues| => Message(issues[i]))
    }
  }

  function When(cond: bool, issue: Issue): seq<Issue> {
    if cond then [issue] else []
  }

  /** The six checks of the shared policy, given whether each condition fails,
      each adding its issue in turn. */
  function Collect(c0: bool, c1: bool, c2: bool, c3: bool, c4: bool, c5: bool): seq<Issue> {
    When(c0, TooShort) + When(c1, NoUppercase) + When(c2, NoLowercase)
    + When(c3, NoDigit) + When(c4, NoSpecial) + When(c5, TooCommon)
  }

  /** Appending a rule that ranks after everything collected so far keeps the order. */
  lemma AppendKeepsOrder(s: seq<Issue>, cond: bool, issue: Issue)
    requires StrictlyOrdered(s)
    requires forall x :: x in s ==> Rank(x) < Rank(issue)
    ensures StrictlyOrdered(s + When(cond, issue))
  {
    var t := s + When(cond, issue);
    forall i, j | 0 <= i < j < |t|
      ensures Rank(t[i]) < Rank(t[j])
    {
      if j >= |s| {
        assert t[i] in s;
      }
    }
  }

  /** Which of the six failure flags belongs to `issue`. */
  function Flag(issue: Issue, c0: bool, c1: bool, c2: bool, c3: bool, c4: bool, c5: bool): bool {
    match issue
    case TooShort => c0
    case NoUppercase => c1
    case NoLowercase => c2
    case NoDigit => c3
    case NoSpecial => c4
    case TooCommon => c5
  }

  lemma CollectIsOrdered(c0: bool, c1: bool, c2: bool, c3: bool, c4: bool, c5: bool)
    ensures StrictlyOrdered(Collect(c0, c1, c2, c3, c4, c5))
  {
    var s0 := When(c0, TooShort);
    var s1 := s0 + When(c1, NoUppercase);
    AppendKeepsOrder(s0, c1, NoUppercase);
    var s2 := s1 + When(c2, NoLowercase);
    AppendKeepsOrder(s1, c2, NoLowercase);
    var s3 := s2 + When(c3, NoDigit);
    AppendKeepsOrder(s2, c3, NoDigit);
    var s4 := s3 + When(c4, NoSpecial);
    AppendKeepsOrder(s3, c4, NoSpecial);
    var s5 := s4 + When(c5, TooCommon);
    AppendKeepsOrder(s4, c5, TooCommon);
    assert Collect(c0, c1, c2, c3, c4, c5) == s5;
  }

  /** A rule is collected exactly when its condition failed. */
  lemma CollectHas(issue: Issue, c0: bool, c1: bool, c2: bool, c3: bool, c4: bool, c5: bool)
    ensures issue in Collect(c0, c1, c2, c3, c4, c5) <==> Flag(issue, c0, c1, c2, c3, c4, c5)
  {
  }

  /** `validatePassword` of the shared utility: every rule is checked and adds its
      own issue, in the fixed order; the password is valid iff none was added. */
  function Validate(pw: string): (r: Report)
    ensures r.isValid <==> |r.issues| == 0
    ensures forall issue :: issue in r.issues <==> Breaks(pw, issue)
    ensures StrictlyOrdered(r.issues)
    ensures |r.issues| <= 6
  {
    var c0, c1, c2 := |pw| < MinLength, !HasUpper(pw), !HasLower(pw);
    var c3, c4, c5 := !HasDigit(pw), !HasSpecial(pw), IsCommon(pw);
    var issues := Collect(c0, c1, c2, c3, c4, c5);
    CollectIsOrdered(c0, c1, c2, c3, c4, c5);
    assert forall issue :: issue in issues <==> Breaks(pw, issue) by {
      forall issue ensures issue in issues <==> Breaks(pw, issue) {
        CollectHas(issue, c0, c1, c2, c3, c4, c5);
      }
    }
    Report(|issues| == 0, issues)
  }

  /** A password the policy accepts has every required character class and length. */
  lemma ValidPasswordShape(pw: string)
    requires Validate(pw).isValid
    ensures |pw| >= 8
    ensures exists i :: 0 <= i < |pw| && IsUpper(pw[i])
    ensures exists i :: 0 <= i < |pw| && IsLower(pw[i])
    ensures exists i :: 0 <= i < |pw| && IsDigit(pw[i])
    ensures exists i :: 0 <= i < |pw| && pw[i] in SpecialChars
    ensures Lower(pw) !in CommonPasswords
  {
    var r := Validate(pw);
    assert !Breaks(pw, TooShort) && !Breaks(pw, NoUppercase) && !Breaks(pw, NoLowercase);
    assert !Breaks(pw, NoDigit) && !Breaks(pw, NoSpecial) && !Breaks(pw, TooCommon);
  }

  /** The common-password rule ignores letter case: two passwords that differ only
      in the case of their letters are judged alike. */
  lemma {:induction false} CommonCheckIgnoresCase(a: string, b: string)
    requires Lower(a) == Lower(b)
    ensures TooCommon in Validate(a).issues <==> TooCommon in Validate(b).issues
  {
    assert Breaks(a, TooCommon) <==> Breaks(b, TooCommon);
  }

  /** For example, every capitalisation of a listed password is rejected as too common. */
  lemma ShoutedCommonPasswordRejected()
    ensures TooCommon in Validate("PassWord1").issues
    ensures !Validate("PassWord1").isValid
  {
    assert Lower("PassWord1") == "password1";
    assert Breaks("PassWord1", TooCommon);
  }

  /** Outcome of the context's local check: valid, or the message of the first failure. */
  datatype LocalCheck = Accepted | Rejected(message: string)

  /** The order in which the authentication context checks its four rules. */
  const LocalOrder: seq<Issue> := [TooShort, NoLowercase, NoUppercase, NoDigit]

  /** `validatePassword` local to the authentication context: the first failing
      rule among length, lowercase, uppercase, digit; no special-character or
      common-password rule. */
  function ValidateLocal(pw: string): (r: LocalCheck)
    ensures r.Accepted? <==> |pw| >= 8 && HasLower(pw) && HasUpper(pw) && HasDigit(pw)
    ensures r.Rejected? ==>
      exists k :: 0 <= k < |LocalOrder| && Breaks(pw, LocalOrder[k])
        && (forall j :: 0 <= j < k ==> !Breaks(pw, LocalOrder[j]))
        && r.message == Message(LocalOrder[k])
  {
    if |pw| < MinLength then
      assert Breaks(pw, LocalOrder[0]);
      Rejected(Message(TooShort))
    else if !HasLower(pw) then
      assert Breaks(pw, LocalOrder[1]) && !Breaks(pw, LocalOrder[0]);
      Rejected(Message(NoLowercase))
    else if !HasUpper(pw) then
      assert Breaks(pw, LocalOrder[2]) && !Breaks(pw, LocalOrder[1]) && !Breaks(pw, LocalOrder[0]);
      Rejected(Message(NoUppercase))
    else if !HasDigit(pw) then
      assert Breaks(pw, LocalOrder[3]) && !Breaks(pw, LocalOrder[2]);
      assert !Breaks(pw, LocalOrder[1]) && !Breaks(pw, LocalOrder[0]);
      Rejected(Message(NoDigit))
    else Accepted
  }

  /** The two checks disagree: the context accepts passwords the shared policy
      rejects for lack of a special character. */
  lemma LocalCheckIsWeaker()
    ensures ValidateLocal("Abcdefg1").Accepted?
    ensures !Validate("Abcdefg1").isValid
  {
    var pw := "Abcdefg1";
    assert IsUpper(pw[0]) && IsLower(pw[1]) && IsDigit(pw[7]);
    assert !HasSpecial(pw);
  }

  /** Everything the shared policy accepts, the local check accepts too. */
  lemma PolicyImpliesLocal(pw: string)
    requires Validate(pw).isValid
    ensures ValidateLocal(pw).Accepted?
  {
    ValidPasswordShape(pw);
  }
}

=== FILE: pi_connection.dfy ===
/** `src/hooks/usePiConnection.ts`: the device record and connecting flag after
    a reachability check of the Raspberry Pi.  The check itself (an HTTP
    request with a timeout) is replaced by its outcome. */
module PiConnection {
  import opened Text

  datatype Status = Online | Offline | Connecting

  /** `lastSeen` is a clock reading supplied by the caller. */
  datatype PiDevice = PiDevice(id: string, name: string, ip: string, status: Status, lastSeen: int)

  datatype PiState = PiState(device: Option<PiDevice>, isConnecting: bool)

  const PiId := "pi-zero-w"
  const PiName := "Raspberry Pi Zero W"

  /** `checkConnection(ip)` once the request has either completed (`reachable`)
      or thrown; the failure is caught, so a state always results. */
  function CheckConnection(st: PiState, ip: string, reachable: bool, now: int): (r: PiState)
    // the flag is cleared whatever happened
    ensures !r.isConnecting
    // there is always a device afterwards, online exactly when the check succeeded
    ensures r.device.Some?
    ensures r.device.value.status == Online <==> reachable
    ensures reachable ==> r.device == Some(PiDevice(PiId, PiName, ip, Online, now))
    // a failure keeps everything of a known device but its status
    ensures !reachable && st.device.Some? ==>
      r.device.value.id == st.device.value.id && r.device.value.name == st.device.value.name
      && r.device.value.ip == st.device.value.ip && r.device.value.lastSeen == st.device.value.lastSeen
      && r.device.value.status == Offline
    ensures !reachable && st.device.None? ==> r.device == Some(PiDevice(PiId, PiName, ip, Offline, now))
  {
    if reachable then PiState(Some(PiDevice(PiId, PiName, ip, Online, now)), false)
    else
      match st.device
      case Some(d) => PiState(Some(d.(status := Offline)), false)
      case None => PiState(Some(PiDevice(PiId, PiName, ip, Offline, now)), false)
  }

  /** `connectToPi(ip)`: exactly a check of that address. */
  function ConnectToPi(st: PiState, ip: string, reachable: bool, now: int): PiState {
    CheckConnection(st, ip, reachable, now)
  }

  /** A failed check against a different address still reports the known
      device's old address. */
  lemma FailureKeepsOldAddress(d: PiDevice, ip: string, now: int)
    requires d.ip != ip
    ensures CheckConnection(PiState(Some(d), false), ip, false, now).device.value.ip == d.ip
  {
  }

  /** Repeating a check with the same outcome at the same time changes nothing more. */
  lemma CheckIdempotent(st: PiState, ip: string, reachable: bool, now: int)
    ensures var once := CheckConnection(st, ip, reachable, now);
      CheckConnection(once, ip, reachable, now) == once
  {
  }

  /** The hook never leaves a device in the `connecting` state it declares. */
  lemma {:induction false} NeverConnecting(st: PiState, checks: seq<(string, bool, int)>)
    requires st.device.Some? ==> st.device.value.status != Connecting
    ensures var r := CheckAll(st, checks); r.device.Some? ==> r.device.value.status != Connecting
    decreases |checks|
  {
    if |checks| > 0 {
      var (ip, ok, now) := checks[0];
      NeverConnecting(CheckConnection(st, ip, ok, now), checks[1..]);
    }
  }

  /** A run of checks, as the 30-second timer would make them. */
  function CheckAll(st: PiState, checks: seq<(string, bool, int)>): PiState
    decreases |checks|
  {
    if |checks| == 0 then st
    else
      var (ip, ok, now) := checks[0];
      CheckAll(CheckConnection(st, ip, ok, now), checks[1..])
  }
}

=== FILE: routing.dfy ===
/** What the two route guards render for a given authentication state:
    `src/components/ProtectedRoute.tsx` and the top of `src/pages/Auth.tsx`. */
module Routing {
  import opened Text
  import AuthContext

  datatype View = LoadingScreen | Redirect(to: string, replace: bool) | Children | AuthForm

  /** `ProtectedRoute`: loading first, then the redirect to `/auth`, then the children. */
  function ProtectedRoute(s: AuthContext.Session): (v: View)
    ensures s.loading ==> v == LoadingScreen
    ensures !s.loading && s.user.None? ==> v == Redirect("/auth", true)
    ensures v == Children <==> !s.loading && s.user.Some?
    ensures v.Redirect? ==> v.to == "/auth" && v.replace
  {
    if s.loading then LoadingScreen
    else if s.user.None? then Redirect("/auth", true)
    else Children
  }

  /** The `Auth` page: a signed-in user whose session has loaded goes home;
      otherwise the loading screen, then the form. */
  function AuthRoute(s: AuthContext.Session): (v: View)
    ensures v == Redirect("/", true) <==> s.user.Some? && !s.loading
    ensures v == LoadingScreen <==> s.loading
    ensures v == AuthForm <==> !s.loading && s.user.None?
  {
    if s.user.Some? && !s.loading then Redirect("/", true)
    else if s.loading then LoadingScreen
    else AuthForm
  }

  /** For every state at most one of the two guards redirects, and each
      redirects to the other's page only when that page will render. */
  lemma NoRedirectLoop(s: AuthContext.Session)
    ensures !(ProtectedRoute(s).Redirect? && AuthRoute(s).Redirect?)
    ensures ProtectedRoute(s).Redirect? ==> AuthRoute(s) == AuthForm
    ensures AuthRoute(s).Redirect? ==> ProtectedRoute(s) == Children
  {
  }
}

=== FILE: sanitize.dfy ===
/** Input sanitising and e-mail validation of `src/utils/inputSanitization.ts`.

    Each `.replace(regex, '')` with the global flag is modelled as a
    left-to-right scan: at every position the pattern either matches (and the
    matched characters are dropped, scanning resumes after them) or it does not
    (and the character is kept).  None of the four patterns can match the empty
    string and none looks behind, so whether a pattern matches at a position
    depends only on the rest of the string from there: `MatchLength`.
 */
module Sanitize {
  import opened Text

  /** The four patterns `sanitizeInput` deletes, in the order it deletes them:
      `<script\b...</script>` blocks, `<...>` tags, `javascript:` and `on\w+\s*=`. */
  datatype Pattern = ScriptBlock | Tag | JavascriptScheme | EventHandler

  /** `lit` (written in lower case) occurs at position `i` when ASCII letters are
      compared without regard to case, as the `i` flag does. */
  predicate OccursAtIgnoringCase(s: string, lit: string, i: nat) {
    i + |lit| <= |s| && forall k :: 0 <= k < |lit| ==> LowerChar(s[i + k]) == lit[k]
  }

  function FindIgnoringCase(s: string, lit: string, from: nat): (r: Option<nat>)
    requires from <= |s|
    ensures r.Some? ==> from <= r.value && OccursAtIgnoringCase(s, lit, r.value)
    ensures r.Some? ==> forall k :: from <= k < r.value ==> !OccursAtIgnoringCase(s, lit, k)
    ensures r.None? ==> forall k :: from <= k ==> !OccursAtIgnoringCase(s, lit, k)
    decreases |s| - from
  {
    if OccursAtIgnoringCase(s, lit, from) then Some(from)
    else if from + |lit| >= |s| then None
    else FindIgnoringCase(s, lit, from + 1)
  }

  /** End of the run of `\w` characters starting at `i`. */
  function WordRunEnd(s: string, i: nat): (j: nat)
    requires i <= |s|
    ensures i <= j <= |s|
    ensures forall k :: i <= k < j ==> IsWordChar(s[k])
    ensures j == |s| || !IsWordChar(s[j])
    decreases |s| - i
  {
    if i == |s| || !IsWordChar(s[i]) then i else WordRunEnd(s, i + 1)
  }

  /** From index 2 up to `j` (at least one character) a run of `\w`, then white
      space up to `m`. */
  predicate WordThenSpace(s: string, j: nat, m: nat) {
    3 <= j <= m <= |s|
    && (forall k :: 2 <= k < j ==> IsWordChar(s[k]))
    && (forall k :: j <= k < m ==> IsWhitespace(s[k]))
  }

  /** `on\w+\s*=` matches the first `m + 1` characters of `s`. */
  predicate HandlerShape(s: string, m: nat) {
    m < |s| && s[m] == '=' && OccursAtIgnoringCase(s, "on", 0) && exists j: nat :: j <= m && WordThenSpace(s, j, m)
  }

  /** The greedy runs of `on\w+\s*=` end where any match must: a match is unique. */
  lemma HandlerShapeFound(s: string, m: nat)
    requires HandlerShape(s, m)
    ensures |s| >= 3 && IsWordChar(s[2]) && SkipSpaceFrom(s, WordRunEnd(s, 2)) == m
  {
    var j: nat :| j <= m && WordThenSpace(s, j, m);
    assert m < |s| && s[m] == '=';
    var w := WordRunEnd(s, 2);
    assert !IsWordChar(s[j]) by {
      if j < m { assert IsWhitespace(s[j]); } else { assert s[j] == '='; }
    }
    assert w == j;
    assert SkipSpaceFrom(s, j) == m;
  }

  /** How many characters pattern `p` matches at the start of `s` (0: no match). */
  function MatchLength(p: Pattern, s: string): (n: nat)
    ensures n <= |s|
    // `<script\b`, then everything up to the first `</script>`, which must exist
    ensures p == ScriptBlock ==>
      (n > 0 <==> OccursAtIgnoringCase(s, "<script", 0) && (|s| == 7 || !IsWordChar(s[7]))
                  && exists k: nat :: 7 <= k && OccursAtIgnoringCase(s, "</script>", k))
    ensures p == ScriptBlock && n > 0 ==>
      16 <= n && OccursAtIgnoringCase(s, "</script>", n - 9)
      && forall k: nat :: 7 <= k < n - 9 ==> !OccursAtIgnoringCase(s, "</script>", k)
    // `<[^>]*>`: from a leading `<` through the first `>`
    ensures p == Tag ==> (n > 0 <==> |s| > 0 && s[0] == '<' && '>' in s[1..])
    ensures p == Tag && n > 0 ==> 2 <= n && s[n - 1] == '>' && '>' !in s[1..n - 1]
    ensures p == JavascriptScheme ==> (n > 0 <==> OccursAtIgnoringCase(s, "javascript:", 0))
    ensures p == JavascriptScheme && n > 0 ==> n == 11
    // `on\w+\s*=`: matches exactly when the prefix has that shape, and then all of it
    ensures p == EventHandler ==> (n > 0 <==> exists m: nat :: HandlerShape(s, m))
    ensures p == EventHandler && n > 0 ==> HandlerShape(s, n - 1)
  {
    match p
    case ScriptBlock =>
      // `<script` then a word boundary, then everything up to the first `</script>`
      if OccursAtIgnoringCase(s, "<script", 0) && (|s| == 7 || !IsWordChar(s[7])) then
        match FindIgnoringCase(s, "</script>", 7)
        case Some(j) => j + 9
        case None => 0
      else 0
    case Tag =>
      // `<`, any characters but `>`, then `>`
      if |s| > 0 && s[0] == '<' then
        match FindChar(s, '>', 1)
        case Some(j) =>
          assert forall k :: 0 <= k < j - 1 ==> s[1..j][k] == s[k + 1];
          assert s[1..][j - 1] == '>';
          j + 1
        case None =>
          assert forall k :: 0 <= k < |s| - 1 ==> s[1..][k] == s[k + 1];
          0
      else 0
    case JavascriptScheme =>
      if OccursAtIgnoringCase(s, "javascript:", 0) then 11 else 0
    case EventHandler =>
      // `on`, at least one `\w`, any `\s`, then `=`; greedy runs cannot backtrack onto `=`
      assert forall m: nat :: HandlerShape(s, m) ==>
        |s| >= 3 && IsWordChar(s[2]) && SkipSpaceFrom(s, WordRunEnd(s, 2)) == m by {
        forall m: nat | HandlerShape(s, m)
          ensures |s| >= 3 && IsWordChar(s[2]) && SkipSpaceFrom(s, WordRunEnd(s, 2)) == m
        {
          HandlerShapeFound(s, m);
        }
      }
      if |s| >= 3 && OccursAtIgnoringCase(s, "on", 0) && IsWordChar(s[2]) then
        var e := SkipSpaceFrom(s, WordRunEnd(s, 2));
        if e < |s| && s[e] == '=' then
          assert WordThenSpace(s, WordRunEnd(s, 2), e);
          assert HandlerShape(s, e);
          e + 1
        else 0
      else 0
  }

  /** `s.replace(p, '')` with the global flag. */
  function Strip(p: Pattern, s: string): (r: string)
    ensures IsSubsequence(r, s)
    decreases |s|
  {
    if |s| == 0 then ""
    else
      var k := MatchLength(p, s);
      if k > 0 then
        var r := Strip(p, s[k..]);
        SuffixIsSubsequence(s, k);
        SubsequenceTransitive(r, s[k..], s);
        r
      else
        var r := Strip(p, s[1..]);
        ConsSubsequence(s, r);
        [s[0]] + r
  }

  /** No `<`, `:` or `=`: none of the four patterns can match anywhere. */
  predicate HasNoMarkup(s: string) {
    forall k :: 0 <= k < |s| ==> s[k] != '<' && s[k] != ':' && s[k] != '='
  }

  /** A string without markup characters passes a deletion unchanged. */
  lemma {:induction false} StripKeepsPlain(p: Pattern, s: string)
    requires HasNoMarkup(s)
    ensures Strip(p, s) == s
    decreases |s|
  {
    if |s| > 0 {
      match p {
        case ScriptBlock => assert LowerChar(s[0]) != "<script"[0];
        case Tag =>
        case JavascriptScheme => if |s| > 10 { assert LowerChar(s[10]) != "javascript:"[10]; }
        case EventHandler =>
      }
      assert MatchLength(p, s) == 0;
      assert HasNoMarkup(s[1..]);
      StripKeepsPlain(p, s[1..]);
      assert s == [s[0]] + s[1..];
    }
  }

  /** A trimmed string without markup characters is its own cleaned form. */
  lemma CleanedKeepsPlain(s: string)
    requires HasNoMarkup(s) && IsTrimmed(s)
    ensures Cleaned(s) == s
  {
    StripKeepsPlain(ScriptBlock, s);
    StripKeepsPlain(Tag, s);
    StripKeepsPlain(JavascriptScheme, s);
    StripKeepsPlain(EventHandler, s);
  }

  /** No `<` is followed, anywhere later, by a `>`: nothing tag-shaped is left. */
  predicate NoOpenBeforeClose(s: string) {
    forall i, j :: 0 <= i < j < |s| && s[i] == '<' ==> s[j] != '>'
  }

  /** After tags are stripped, a remaining `<` has no `>` anywhere after it. */
  lemma {:induction false} StripTagsLeavesNoTag(s: string)
    ensures NoOpenBeforeClose(Strip(Tag, s))
    decreases |s|
  {
    if |s| > 0 {
      var k := MatchLength(Tag, s);
      if k > 0 {
        StripTagsLeavesNoTag(s[k..]);
      } else {
        var rest := Strip(Tag, s[1..]);
        StripTagsLeavesNoTag(s[1..]);
        var r := [s[0]] + rest;
        assert Strip(Tag, s) == r;
        if s[0] == '<' {
          assert '>' !in s[1..];
          SubsequenceChars(rest, s[1..]);
        }
        forall i, j | 0 <= i < j < |r| && r[i] == '<'
          ensures r[j] != '>'
        {
          assert r[j] == rest[j - 1];
          if i > 0 {
            assert rest[i - 1] == '<';
          } else {
            assert rest[j - 1] in s[1..];
          }
        }
      }
    }
  }

  /** Deleting characters cannot put a `>` after a `<`. */
  lemma {:induction false} SubsequenceKeepsNoTag(a: string, b: string)
    requires IsSubsequence(a, b) && NoOpenBeforeClose(b)
    ensures NoOpenBeforeClose(a)
    decreases |b|
  {
    if |a| == 0 {
    } else if a[0] == b[0] && IsSubsequence(a[1..], b[1..]) {
      assert NoOpenBeforeClose(b[1..]) by {
        forall i, j | 0 <= i < j < |b[1..]| && b[1..][i] == '<'
          ensures b[1..][j] != '>'
        {
          assert b[i + 1] == '<';
        }
      }
      SubsequenceKeepsNoTag(a[1..], b[1..]);
      SubsequenceChars(a[1..], b[1..]);
      forall i, j | 0 <= i < j < |a| && a[i] == '<'
        ensures a[j] != '>'
      {
        assert a[j] == a[1..][j - 1];
        if i > 0 {
          assert a[1..][i - 1] == '<';
        } else {
          var m :| 0 <= m < |b[1..]| && b[1..][m] == a[j];
          assert b[m + 1] == a[j];
        }
      }
    } else {
      assert NoOpenBeforeClose(b[1..]) by {
        forall i, j | 0 <= i < j < |b[1..]| && b[1..][i] == '<'
          ensures b[1..][j] != '>'
        {
          assert b[i + 1] == '<';
        }
      }
      SubsequenceKeepsNoTag(a, b[1..]);
    }
  }

  /** The four deletions followed by `trim()`: the sanitised string before any
      length limit is applied. */
  function Cleaned(input: string): (r: string)
    ensures IsSubsequence(r, input)
    ensures NoOpenBeforeClose(r)
    ensures IsTrimmed(r)
  {
    var s1 := Strip(ScriptBlock, input);
    var s2 := Strip(Tag, s1);
    var s3 := Strip(JavascriptScheme, s2);
    var s4 := Strip(EventHandler, s3);
    var r := Trim(s4);
    StripTagsLeavesNoTag(s1);
    SubsequenceTransitive(r, s4, s3);
    SubsequenceTransitive(r, s3, s2);
    SubsequenceKeepsNoTag(r, s2);
    SubsequenceTransitive(r, s2, s1);
    SubsequenceTransitive(r, s1, input);
    r
  }

  /** `sanitizeInput(input, maxLength)`.  `maxLength` is `None` when the argument
      is omitted; `0` is falsy and so also disables the limit; a negative limit
      makes `substring(0, maxLength)` return the empty string. */
  function SanitizeInput(input: string, maxLength: Option<int>): (r: string)
    ensures |input| == 0 ==> r == ""
    ensures IsSubsequence(r, input)
    ensures NoOpenBeforeClose(r)
    ensures |r| <= |Cleaned(input)| && r == Cleaned(input)[..|r|]
    ensures maxLength.None? || maxLength == Some(0) ==> r == Cleaned(input)
    ensures maxLength.Some? && maxLength.value > 0 ==> |r| <= maxLength.value
    // `substring(0, maxLength)` keeps exactly `maxLength` characters of a longer string
    ensures maxLength.Some? && maxLength.value > 0 ==>
      |r| == if |Cleaned(input)| <= maxLength.value then |Cleaned(input)| else maxLength.value
    ensures maxLength.Some? && maxLength.value > 0 && |Cleaned(input)| <= maxLength.value
      ==> r == Cleaned(input)
    ensures maxLength.Some? && maxLength.value < 0 ==> r == ""
    ensures |r| == |Cleaned(input)| ==> IsTrimmed(r)
  {
    if |input| == 0 then ""
    else
      var c := Cleaned(input);
      var limit := if maxLength.Some? then maxLength.value else 0;
      if limit != 0 && |c| > limit then
        var cut := if limit < 0 then 0 else limit;
        PrefixIsSubsequence(c, cut);
        SubsequenceTransitive(c[..cut], c, input);
        SubsequenceKeepsNoTag(c[..cut], c);
        c[..cut]
      else
        c
  }

  /** The characters `sanitizeDeviceName` keeps: `[a-zA-Z0-9\s\-_]`. */
  predicate IsNameChar(c: char) {
    IsUpper(c) || IsLower(c) || IsDigit(c) || IsWhitespace(c) || c == '-' || c == '_'
  }

  /** `s.replace(/[^a-zA-Z0-9\s\-_]/g, '')`. */
  function KeepNameChars(s: string): (r: string)
    ensures IsSubsequence(r, s)
    ensures forall k :: 0 <= k < |r| ==> IsNameChar(r[k])
    ensures forall k :: 0 <= k < |s| && IsNameChar(s[k]) ==> s[k] in r
    // every name character is kept as often as it occurs, every other one is dropped
    ensures forall c :: multiset(r)[c] == if IsNameChar(c) then multiset(s)[c] else 0
    ensures (forall k :: 0 <= k < |s| ==> IsNameChar(s[k])) ==> r == s
    decreases |s|
  {
    if |s| == 0 then ""
    else
      var rest := KeepNameChars(s[1..]);
      assert s == [s[0]] + s[1..];
      assert multiset(s) == multiset{s[0]} + multiset(s[1..]);
      if IsNameChar(s[0]) then
        ConsSubsequence(s, rest);
        assert forall k :: 1 <= k < |s| ==> s[k] == s[1..][k - 1];
        [s[0]] + rest
      else
        assert forall k :: 1 <= k < |s| ==> s[k] == s[1..][k - 1];
        rest
  }

  /** `sanitizeDeviceName`: sanitised, cut to 50 characters, then every character
      outside the name alphabet removed. */
  function SanitizeDeviceName(name: string): (r: string)
    ensures |r| <= 50
    ensures forall k :: 0 <= k < |r| ==> IsNameChar(r[k])
    ensures IsSubsequence(r, name)
    // the name characters of the sanitised, cut string, each as often as it holds them
    ensures IsSubsequence(r, SanitizeInput(name, Some(50)))
    ensures forall c :: multiset(r)[c] == if IsNameChar(c) then multiset(SanitizeInput(name, Some(50)))[c] else 0
  {
    var s := SanitizeInput(name, Some(50));
    var r := KeepNameChars(s);
    SubsequenceLength(r, s);
    SubsequenceTransitive(r, s, name);
    r
  }

  lemma {:induction false} SubsequenceLength(a: string, b: string)
    requires IsSubsequence(a, b)
    ensures |a| <= |b|
    decreases |b|
  {
    if |a| > 0 {
      if a[0] == b[0] && IsSubsequence(a[1..], b[1..]) {
        SubsequenceLength(a[1..], b[1..]);
      } else {
        SubsequenceLength(a, b[1..]);
      }
    }
  }

  /** `sanitizeLogMessage`: sanitised and cut to 500 characters. */
  function SanitizeLogMessage(message: string): (r: string)
    ensures |r| <= 500
    ensures IsSubsequence(r, message)
    ensures NoOpenBeforeClose(r)
    // the cleaned message, cut to its first 500 characters
    ensures |r| == (if |Cleaned(message)| <= 500 then |Cleaned(message)| else 500)
    ensures r == Cleaned(message)[..|r|]
  {
    SanitizeInput(message, Some(500))
  }

  /** A trimmed name of at most 50 name characters is stored as given. */
  lemma PlainNameUnchanged(name: string)
    requires |name| <= 50 && IsTrimmed(name)
    requires forall k :: 0 <= k < |name| ==> IsNameChar(name[k])
    ensures SanitizeDeviceName(name) == name
  {
    CleanedKeepsPlain(name);
  }

  /** A trimmed message of at most 500 characters without `<`, `:` or `=` is
      logged as given. */
  lemma PlainMessageUnchanged(message: string)
    requires |message| <= 500 && IsTrimmed(message) && HasNoMarkup(message)
    ensures SanitizeLogMessage(message) == message
  {
    CleanedKeepsPlain(message);
  }

  /** A character `[^\s@]` admits. */
  predicate IsAddressChar(c: char) { c != '@' && !IsWhitespace(c) }

  predicate AllAddressChars(s: string) { forall k :: 0 <= k < |s| ==> IsAddressChar(s[k]) }

  /** The language of `/^[^\s@]+@[^\s@]+\.[^\s@]+$/`: three non-empty runs of
      `[^\s@]`, joined by `@` and by `.`. */
  ghost predicate InEmailLanguage(s: string) {
    exists at, dot :: 0 < at && at + 1 < dot && dot + 1 < |s|
      && s[at] == '@' && s[dot] == '.'
      && AllAddressChars(s[..at]) && AllAddressChars(s[at + 1..dot]) && AllAddressChars(s[dot + 1..])
  }

  /** The test the regular expression performs, read as a check on the string:
      no whitespace, exactly one `@` with something before it, and a `.` after
      it that is neither the first nor the last character of the domain. */
  predicate MatchesEmailPattern(s: string) {
    && (forall k :: 0 <= k < |s| ==> !IsWhitespace(s[k]))
    && match FindChar(s, '@', 0)
       case None => false
       case Some(at) =>
         && 0 < at
         && FindChar(s, '@', at + 1).None?
         && (exists dot :: at + 1 < dot < |s| - 1 && s[dot] == '.')
  }

  lemma {:induction false} FindCharFirst(s: string, c: char, from: nat, at: nat)
    requires from <= at < |s| && s[at] == c
    requires forall k :: from <= k < at ==> s[k] != c
    ensures FindChar(s, c, from) == Some(at)
    decreases at - from
  {
    if from < at {
      FindCharFirst(s, c, from + 1, at);
    }
  }

  lemma {:induction false} FindCharAbsent(s: string, c: char, from: nat)
    requires from <= |s|
    requires forall k :: from <= k < |s| ==> s[k] != c
    ensures FindChar(s, c, from).None?
    decreases |s| - from
  {
    if from < |s| {
      FindCharAbsent(s, c, from + 1);
    }
  }

  lemma LanguageIsPattern(s: string)
    requires InEmailLanguage(s)
    ensures MatchesEmailPattern(s)
  {
    var at, dot :| 0 < at && at + 1 < dot && dot + 1 < |s|
      && s[at] == '@' && s[dot] == '.'
      && AllAddressChars(s[..at]) && AllAddressChars(s[at + 1..dot]) && AllAddressChars(s[dot + 1..]);
    forall k | 0 <= k < |s| && k != at
      ensures IsAddressChar(s[k])
    {
      if k < at {
        assert s[k] == s[..at][k];
      } else if at < k < dot {
        assert s[k] == s[at + 1..dot][k - at - 1];
      } else if dot < k {
        assert s[k] == s[dot + 1..][k - dot - 1];
      }
    }
    FindCharFirst(s, '@', 0, at);
    FindCharAbsent(s, '@', at + 1);
  }

  lemma PatternIsLanguage(s: string)
    requires MatchesEmailPattern(s)
    ensures InEmailLanguage(s)
  {
    var at := FindChar(s, '@', 0).value;
    var dot :| at + 1 < dot < |s| - 1 && s[dot] == '.';
    assert forall k :: at < k < |s| ==> s[k] != '@';
    assert AllAddressChars(s[..at]);
    assert AllAddressChars(s[at + 1..dot]);
    assert AllAddressChars(s[dot + 1..]);
  }

  /** The check above accepts exactly the strings of the regular language. */
  lemma EmailPatternIsLanguage(s: string)
    ensures MatchesEmailPattern(s) <==> InEmailLanguage(s)
  {
    if InEmailLanguage(s) {
      LanguageIsPattern(s);
    }
    if MatchesEmailPattern(s) {
      PatternIsLanguage(s);
    }
  }

  /** `validateEmail` of the utility: the regular expression and at most 254 characters. */
  function ValidateEmail(email: string): (ok: bool)
    ensures ok <==> InEmailLanguage(email) && |email| <= 254
  {
    EmailPatternIsLanguage(email);
    MatchesEmailPattern(email) && |email| <= 254
  }

  /** What an address matching the pattern looks like. */
  lemma EmailPatternShape(email: string)
    requires MatchesEmailPattern(email)
    ensures forall k :: 0 <= k < |email| ==> !IsWhitespace(email[k])
    ensures exists at ::
      && 0 < at < |email| && email[at] == '@'
      && (forall k :: 0 <= k < |email| && k != at ==> email[k] != '@')
      && (exists dot :: at + 1 < dot < |email| - 1 && email[dot] == '.')
  {
    var at := FindChar(email, '@', 0).value;
    assert forall k :: 0 <= k < |email| && k != at ==> email[k] != '@';
  }

  /** What an address `validateEmail` accepts looks like. */
  lemma ValidEmailShape(email: string)
    requires ValidateEmail(email)
    ensures |email| <= 254
    ensures forall k :: 0 <= k < |email| ==> !IsWhitespace(email[k])
    ensures exists at ::
      && 0 < at < |email| && email[at] == '@'
      && (forall k :: 0 <= k < |email| && k != at ==> email[k] != '@')
      && (exists dot :: at + 1 < dot < |email| - 1 && email[dot] == '.')
  {
    EmailPatternShape(email);
  }

  /** The shortest kind of address: one character in each of the three runs. */
  lemma ShortAddressAccepted()
    ensures InEmailLanguage("a@b.c")
    ensures ValidateEmail("a@b.c")
  {
    var s := "a@b.c";
    assert s[1] == '@' && s[3] == '.';
    assert AllAddressChars(s[..1]) && AllAddressChars(s[2..3]) && AllAddressChars(s[4..]);
  }
}

=== FILE: secure_device_control.dfy ===
/** `src/hooks/useSecureDeviceControl.ts`: the allow-list and range checks on a
    control request, and the ordered guard ladder of `executeDeviceControl`
    with the audit events it records. */
module SecureDeviceControl {
  import opened Text
  import opened Backend

  /** A JavaScript number as `Number(value)` produces it. */
  datatype Num = Finite(x: real) | PosInfinity | NegInfinity | NaN

  /** `params.value`: `undefined`, or a defined value of which only its numeric
      coercion is ever inspected. */
  datatype Value = Undefined | Defined(asNumber: Num)

  datatype ControlParams = ControlParams(
    deviceId: string, action: string, value: Value, deviceType: Option<string>)

  const AllowedActions: seq<string> :=
    ["toggle", "set_temperature", "set_brightness", "arm", "disarm", "capture"]

  /** Which check of `validateInput` failed (each shows its own toast). */
  datatype InputCheck = InputOk | InvalidDevice | InvalidAction | InvalidTemperature | InvalidBrightness

  /** `isNaN(n) || n < lo || n > hi` with JavaScript comparison semantics. */
  predicate OutOfRange(n: Num, lo: real, hi: real) {
    match n
    case NaN => true
    case PosInfinity => true
    case NegInfinity => true
    case Finite(x) => x < lo || x > hi
  }

  /** The range test accepts exactly the finite numbers of the closed interval. */
  lemma OutOfRangeMeaning(n: Num, lo: real, hi: real)
    ensures !OutOfRange(n, lo, hi) <==> n.Finite? && lo <= n.x <= hi
  {
  }

  /** The numeric ranges a defined value must respect, per action. */
  predicate RangeOk(p: ControlParams) {
    && (p.action == "set_temperature" && p.value.Defined? ==>
          p.value.asNumber.Finite? && 50.0 <= p.value.asNumber.x <= 90.0)
    && (p.action == "set_brightness" && p.value.Defined? ==>
          p.value.asNumber.Finite? && 0.0 <= p.value.asNumber.x <= 100.0)
  }

  /** `validateInput`: non-blank device id, an allow-listed action, and for a
      defined value of a temperature or brightness action, a number in range. */
  function ValidateInput(p: ControlParams): (r: InputCheck)
    ensures r.InputOk? <==> !IsBlank(p.deviceId) && p.action in AllowedActions && RangeOk(p)
    ensures r.InvalidDevice? <==> IsBlank(p.deviceId)
    ensures r.InvalidAction? <==> !IsBlank(p.deviceId) && p.action !in AllowedActions
    ensures p.value.Undefined? ==> !r.InvalidTemperature? && !r.InvalidBrightness?
    ensures r.InvalidTemperature? ==> p.action == "set_temperature"
    ensures r.InvalidBrightness? ==> p.action == "set_brightness"
  {
    OutOfRangeMeaning(if p.value.Defined? then p.value.asNumber else NaN, 50.0, 90.0);
    OutOfRangeMeaning(if p.value.Defined? then p.value.asNumber else NaN, 0.0, 100.0);
    if |p.deviceId| == 0 || IsBlank(p.deviceId) then InvalidDevice
    else if |p.action| == 0 || p.action !in AllowedActions then InvalidAction
    else if p.action == "set_temperature" && p.value.Defined?
         && OutOfRange(p.value.asNumber, 50.0, 90.0) then InvalidTemperature
    else if p.action == "set_brightness" && p.value.Defined?
         && OutOfRange(p.value.asNumber, 0.0, 100.0) then InvalidBrightness
    else InputOk
  }

  /** The `user_devices` table, and whether the backend answers queries at all. */
  datatype DeviceTable = DeviceTable(rows: seq<UserDevice>, reachable: bool)

  datatype ControlResult = Controlled(deviceName: string) | Refused(error: string)

  /** The result together with what the call did to the backend. */
  datatype ControlRun = ControlRun(result: ControlResult, events: seq<SecurityEvent>, queried: bool)

  /** The ownership query: this device id, this user. */
  function OwnedRows(db: DeviceTable, userId: string, deviceId: string): seq<UserDevice> {
    Filter(db.rows, (r: UserDevice) => r.deviceId == deviceId && r.userId == userId)
  }

  const OwnershipError := "Failed to verify device ownership"

  /** `executeDeviceControl`.  Guards in order: signed in, valid input, the
      ownership lookup succeeded, a row exists, the device is active. */
  function ExecuteDeviceControl(user: Option<string>, p: ControlParams, db: DeviceTable): (run: ControlRun)
    // not signed in: refused before validation and before any backend access
    ensures user.None? ==> run == ControlRun(Refused("Not authenticated"), [], false)
    // invalid input: refused without backend access
    ensures user.Some? && !ValidateInput(p).InputOk? ==>
      run == ControlRun(Refused("Invalid input parameters"), [], false)
    ensures run.queried <==> user.Some? && ValidateInput(p).InputOk?
    // every path logs at most one event
    ensures |run.events| <= 1
    // not owned: exactly one failed audit event
    ensures run.result == Refused("Device not owned by user") <==>
      run.queried && db.reachable && |OwnedRows(db, user.value, p.deviceId)| == 0
    ensures run.result == Refused("Device not owned by user") ==>
      |run.events| == 1 && !run.events[0].success
      && run.events[0].action == "unauthorized_device_access_attempt"
      && run.events[0].deviceId == p.deviceId
    // owned but inactive: refused, nothing logged
    ensures run.result == Refused("Device is inactive") <==>
      run.queried && db.reachable && |OwnedRows(db, user.value, p.deviceId)| == 1
      && !OwnedRows(db, user.value, p.deviceId)[0].isActive
    ensures run.result == Refused("Device is inactive") ==> run.events == []
    // success needs all guards and logs exactly one success event for the action
    ensures run.result.Controlled? <==>
      user.Some? && ValidateInput(p).InputOk? && db.reachable
      && |OwnedRows(db, user.value, p.deviceId)| == 1
      && OwnedRows(db, user.value, p.deviceId)[0].isActive
    ensures run.result.Controlled? ==>
      |run.events| == 1 && run.events[0].success
      && run.events[0].action == "device_control_" + p.action
      && run.events[0].deviceId == p.deviceId
      && run.result.deviceName == OwnedRows(db, user.value, p.deviceId)[0].deviceName
    // a failed lookup is caught, logged as a failed control and reported
    ensures run.result == Refused(OwnershipError) <==>
      run.queried && (!db.reachable || |OwnedRows(db, user.value, p.deviceId)| > 1)
    ensures run.result == Refused(OwnershipError) ==>
      |run.events| == 1 && !run.events[0].success && run.events[0].action == "device_control_failed"
      && run.events[0].deviceId == p.deviceId
    // only successful controls log a successful event
    ensures forall e :: e in run.events && e.success ==> run.result.Controlled?
  {
    if user.None? then
      ControlRun(Refused("Not authenticated"), [], false)
    else if !ValidateInput(p).InputOk? then
      ControlRun(Refused("Invalid input parameters"), [], false)
    else
      var failed := SecurityEvent("device_control_failed", p.deviceId, false,
        map["action" := p.action, "error" := OwnershipError]);
      var lookup := MaybeSingle(OwnedRows(db, user.value, p.deviceId));
      if !db.reachable || lookup.MultipleRows? then
        // the query reported an error: thrown, caught and logged
        ControlRun(Refused(OwnershipError), [failed], true)
      else
        match lookup
        case NoRow =>
          var denied := SecurityEvent("unauthorized_device_access_attempt", p.deviceId, false,
            map["action" := p.action, "reason" := "device_not_owned"]);
          ControlRun(Refused("Device not owned by user"), [denied], true)
        case OneRow(device) =>
          if !device.isActive then
            ControlRun(Refused("Device is inactive"), [], true)
          else
            var details := map["device_name" := device.deviceName, "action" := p.action];
            var details' := if p.deviceType.Some? then details["device_type" := p.deviceType.value] else details;
            var ok := SecurityEvent("device_control_" + p.action, p.deviceId, true, details');
            ControlRun(Controlled(device.deviceName), [ok], true)
  }
}

=== FILE: system_logs.dfy ===
/** `src/hooks/useSystemLogs.ts`: the `system_logs` table, inserting a log,
    marking one read, and the newest-twenty refetch. */
module SystemLogs {
  import opened Text
  import opened Backend

  type Metadata = map<string, string>

  datatype LogRow = LogRow(
    id: string, userId: string, logType: string, title: string, message: string,
    metadata: Metadata, readAt: Option<int>, createdAt: int)

  /** The table as the backend holds it and the list the hook shows. */
  datatype LogStore = LogStore(table: seq<LogRow>, shown: seq<LogRow>)

  const PageSize: nat := 20

  function CreatedAt(r: LogRow): int { r.createdAt }

  /** The rows row-level security lets the user see: their own. */
  function Visible(t: seq<LogRow>, user: Option<string>): seq<LogRow> {
    Filter(t, (x: LogRow) => user == Some(x.userId))
  }

  /** `select('*').order('created_at', { ascending: false }).limit(20)` under
      row-level security. */
  function FetchLogs(t: seq<LogRow>, user: Option<string>): (r: seq<LogRow>)
    ensures |r| <= PageSize
    ensures |r| == if |Visible(t, user)| < PageSize then |Visible(t, user)| else PageSize
    ensures NewestFirst(r, CreatedAt)
    ensures forall x :: x in r ==> x in t && user == Some(x.userId)
    // visible rows only, none more often than the table holds it
    ensures multiset(r) <= multiset(Visible(t, user))
    // the newest ones: no visible row left out is newer than a row shown
    ensures forall x, y :: x in Visible(t, user) && x !in r && y in r ==> x.createdAt <= y.createdAt
    ensures user.None? ==> r == []
  {
    var sorted := SortNewestFirst(Visible(t, user), CreatedAt);
    SortKeepsRows(Visible(t, user), CreatedAt);
    var r := Limit(sorted, PageSize);
    PrefixNewestFirst(sorted, |r|, CreatedAt);
    PrefixHoldsNewest(sorted, |r|, CreatedAt);
    assert forall x :: x in r ==> x in sorted;
    r
  }

  /** `fetchLogs`: on an error the shown list is left as it was. */
  function RefreshLogs(st: LogStore, user: Option<string>, ok: bool): (r: LogStore)
    ensures r.table == st.table
    ensures !ok ==> r == st
    ensures ok ==> r.shown == FetchLogs(st.table, user)
    ensures ok ==> |r.shown| <= PageSize && NewestFirst(r.shown, CreatedAt)
    ensures ok ==> forall x :: x in r.shown ==> x in st.table && user == Some(x.userId)
    ensures ok ==> forall x, y :: x in Visible(st.table, user) && x !in r.shown && y in r.shown ==>
      x.createdAt <= y.createdAt
  {
    if ok then st.(shown := FetchLogs(st.table, user)) else st
  }

  /** When at most twenty rows are visible, all of them are shown. */
  lemma SmallTableShownWhole(t: seq<LogRow>, userId: string)
    requires |Visible(t, Some(userId))| <= PageSize
    ensures forall x :: x in t && x.userId == userId ==> x in FetchLogs(t, Some(userId))
    ensures multiset(FetchLogs(t, Some(userId))) == multiset(Visible(t, Some(userId)))
  {
    var sorted := SortNewestFirst(Visible(t, Some(userId)), CreatedAt);
    SortKeepsRows(Visible(t, Some(userId)), CreatedAt);
    assert FetchLogs(t, Some(userId)) == sorted;
  }

  /** Whether `addLog` gets as far as sending the insert. */
  predicate SendsInsert(user: Option<string>, logType: string, title: string) {
    user.Some? && !IsBlank(logType) && !IsBlank(title)
  }

  /** `message?.trim() || ''`. */
  function MessageText(message: Option<string>): (m: string)
    ensures IsTrimmed(m)
    ensures message.None? ==> m == ""
    ensures message.Some? ==> m == Trim(message.value)
  {
    if message.Some? then Trim(message.value) else ""
  }

  /** `addLog(logType, title, message, metadata)`; a successful insert is
      followed by a refetch. */
  function AddLog(user: Option<string>, st: LogStore, logType: string, title: string,
                  message: Option<string>, metadata: Option<Metadata>, reply: WriteReply): (r: LogStore)
    ensures !SendsInsert(user, logType, title) || !reply.ok ==> r == st
    // exactly one row is added, after the existing ones
    ensures SendsInsert(user, logType, title) && reply.ok ==>
      && |r.table| == |st.table| + 1
      && r.table[..|st.table|] == st.table
      && var row := r.table[|st.table|];
         && row.userId == user.value && row.id == reply.newId && row.createdAt == reply.now
         && row.logType == Trim(logType) && IsTrimmed(row.logType) && row.logType != ""
         && row.title == Trim(title) && IsTrimmed(row.title) && row.title != ""
         && row.message == MessageText(message)
         && row.metadata == (if metadata.Some? then metadata.value else map[])
         && row.readAt.None?
    ensures SendsInsert(user, logType, title) && reply.ok ==> r.shown == FetchLogs(r.table, user)
  {
    if !SendsInsert(user, logType, title) || !reply.ok then st
    else
      var row := LogRow(reply.newId, user.value, Trim(logType), Trim(title), MessageText(message),
        if metadata.Some? then metadata.value else map[], None, reply.now);
      var t := st.table + [row];
      assert t[..|st.table|] == st.table;
      LogStore(t, FetchLogs(t, user))
  }

  /** The rows an `update ... eq('id', logId)` touches under row-level security. */
  predicate Targets(r: LogRow, user: Option<string>, logId: string) {
    r.id == logId && user == Some(r.userId)
  }

  /** `markAsRead(logId)`: a blank id or a failed update changes nothing;
      otherwise the user's rows with that id get `read_at`, and only those. */
  function MarkAsRead(user: Option<string>, st: LogStore, logId: string, reply: WriteReply): (r: LogStore)
    ensures IsBlank(logId) || !reply.ok ==> r == st
    ensures |r.table| == |st.table|
    ensures forall i :: 0 <= i < |st.table| && !(Targets(st.table[i], user, logId) && !IsBlank(logId) && reply.ok) ==>
      r.table[i] == st.table[i]
    ensures !IsBlank(logId) && reply.ok ==>
      forall i :: 0 <= i < |st.table| && Targets(st.table[i], user, logId) ==>
        r.table[i] == st.table[i].(readAt := Some(reply.now))
    ensures forall i :: 0 <= i < |st.table| && st.table[i].readAt.Some? ==> r.table[i].readAt.Some?
    // a successful update is followed by a refetch
    ensures !IsBlank(logId) && reply.ok ==> r.shown == FetchLogs(r.table, user)
  {
    if IsBlank(logId) || !reply.ok then st
    else
      var t := MarkRows(st.table, user, logId, reply.now);
      LogStore(t, FetchLogs(t, user))
  }

  /** The rows `.update({ read_at })` touches get the read time, the others stay. */
  function MarkRows(t: seq<LogRow>, user: Option<string>, logId: string, now: int): (r: seq<LogRow>)
    ensures |r| == |t|
    ensures forall i :: 0 <= i < |t| ==>
      r[i] == if Targets(t[i], user, logId) then t[i].(readAt := Some(now)) else t[i]
  {
    seq(|t|, i requires 0 <= i < |t| =>
      if Targets(t[i], user, logId) then t[i].(readAt := Some(now)) else t[i])
  }

  /** Marking the same log twice at the same time is marking it once. */
  lemma MarkAsReadIdempotent(user: Option<string>, st: LogStore, logId: string, reply: WriteReply)
    ensures var once := MarkAsRead(user, st, logId, reply);
      MarkAsRead(user, once, logId, reply).table == once.table
  {
    var once := MarkAsRead(user, st, logId, reply);
    var twice := MarkAsRead(user, once, logId, reply);
    forall i | 0 <= i < |once.table| ensures twice.table[i] == once.table[i] {
      if Targets(st.table[i], user, logId) && !IsBlank(logId) && reply.ok {
        assert Targets(once.table[i], user, logId);
      }
    }
  }

  /** Without a signed-in user `markAsRead` reaches no row. */
  lemma MarkAsReadNeedsUser(st: LogStore, logId: string, reply: WriteReply)
    ensures MarkAsRead(None, st, logId, reply).table == st.table
  {
    var r := MarkAsRead(None, st, logId, reply);
    forall i | 0 <= i < |st.table| ensures r.table[i] == st.table[i] {
      assert !Targets(st.table[i], None, logId);
    }
  }
}

=== FILE: text.dfy ===
/** Characters and strings as the dashboard's TypeScript code sees them.

    A string is a `seq<char>`.  The character classes are the ones the source's
    regular expressions use (`[A-Z]`, `[a-z]`, `\d`, `\w`, `\s`), and `Trim` is
    `String.prototype.trim`, which removes exactly the characters `\s` matches.
 */
module Text {

  /** ECMAScript WhiteSpace and LineTerminator code points: the set both `\s`
      and `trim()` use. */
  const WhitespaceChars: set<char> := {
    '\t', '\n', '\U{000B}', '\U{000C}', '\r', ' ', '\U{00A0}', '\U{1680}',
    '\U{2000}', '\U{2001}', '\U{2002}', '\U{2003}', '\U{2004}', '\U{2005}',
    '\U{2006}', '\U{2007}', '\U{2008}', '\U{2009}', '\U{200A}',
    '\U{2028}', '\U{2029}', '\U{202F}', '\U{205F}', '\U{3000}', '\U{FEFF}'
  }

  predicate IsWhitespace(c: char) { c in WhitespaceChars }

  predicate IsUpper(c: char) { 'A' <= c <= 'Z' }

  predicate IsLower(c: char) { 'a' <= c <= 'z' }

  predicate IsDigit(c: char) { '0' <= c <= '9' }

  /** `\w` without the `u` flag: ASCII letters, digits and underscore. */
  predicate IsWordChar(c: char) { IsUpper(c) || IsLower(c) || IsDigit(c) || c == '_' }

  /** Lower-casing restricted to the ASCII letters. */
  function LowerChar(c: char): (d: char)
    ensures IsUpper(c) ==> IsLower(d)
    ensures !IsUpper(c) ==> d == c
  {
    if IsUpper(c) then (c as int + 32) as char else c
  }

  function Lower(s: string): (r: string)
    ensures |r| == |s|
    ensures forall i :: 0 <= i < |s| ==> r[i] == LowerChar(s[i])
  {
    seq(|s|, i requires 0 <= i < |s| => LowerChar(s[i]))
  }

  /** True when the string has a character satisfying the class. */
  predicate HasUpper(s: string) { exists i :: 0 <= i < |s| && IsUpper(s[i]) }

  predicate HasLower(s: string) { exists i :: 0 <= i < |s| && IsLower(s[i]) }

  predicate HasDigit(s: string) { exists i :: 0 <= i < |s| && IsDigit(s[i]) }

  /** Empty or whitespace only: the strings for which `!s || s.trim().length === 0`. */
  predicate IsBlank(s: string) { forall i :: 0 <= i < |s| ==> IsWhitespace(s[i]) }

  /** Neither the first nor the last character is whitespace. */
  predicate IsTrimmed(s: string) {
    |s| == 0 || (!IsWhitespace(s[0]) && !IsWhitespace(s[|s| - 1]))
  }

  /** Index of the first non-whitespace character at or after `i`. */
  function SkipSpaceFrom(s: string, i: nat): (j: nat)
    requires i <= |s|
    ensures i <= j <= |s|
    ensures forall k :: i <= k < j ==> IsWhitespace(s[k])
    ensures j == |s| || !IsWhitespace(s[j])
    decreases |s| - i
  {
    if i == |s| || !IsWhitespace(s[i]) then i else SkipSpaceFrom(s, i + 1)
  }

  /** One past the last non-whitespace character at or before `j - 1`, not going below `lo`. */
  function SkipSpaceBack(s: string, lo: nat, j: nat): (e: nat)
    requires lo <= j <= |s|
    ensures lo <= e <= j
    ensures forall k :: e <= k < j ==> IsWhitespace(s[k])
    ensures e == lo || !IsWhitespace(s[e - 1])
    decreases j
  {
    if j == lo || !IsWhitespace(s[j - 1]) then j else SkipSpaceBack(s, lo, j - 1)
  }

  /** `String.prototype.trim`: the longest infix with no whitespace at either end,
      obtained by removing only whitespace. */
  function Trim(s: string): (r: string)
    ensures IsTrimmed(r)
    ensures |r| == 0 <==> IsBlank(s)
    ensures IsSubsequence(r, s)
    ensures IsTrimmed(s) ==> r == s
  {
    var b := SkipSpaceFrom(s, 0);
    var e := SkipSpaceBack(s, b, |s|);
    SliceIsSubsequence(s, b, e);
    s[b..e]
  }

  /** `a` is obtained from `b` by deleting characters (keeping the order of the rest). */
  predicate IsSubsequence(a: string, b: string)
    decreases |b|
  {
    if |a| == 0 then true
    else if |b| == 0 then false
    else (a[0] == b[0] && IsSubsequence(a[1..], b[1..])) || IsSubsequence(a, b[1..])
  }

  lemma {:induction false} SubsequenceReflexive(s: string)
    ensures IsSubsequence(s, s)
    decreases |s|
  {
    if |s| > 0 {
      SubsequenceReflexive(s[1..]);
    }
  }

  lemma {:induction false} SubsequenceTransitive(a: string, b: string, c: string)
    requires IsSubsequence(a, b) && IsSubsequence(b, c)
    ensures IsSubsequence(a, c)
    decreases |c|
  {
    if |a| == 0 {
    } else if IsSubsequence(b, c[1..]) {
      SubsequenceTransitive(a, b, c[1..]);
    } else {
      assert b[0] == c[0] && IsSubsequence(b[1..], c[1..]);
      if a[0] == b[0] && IsSubsequence(a[1..], b[1..]) {
        SubsequenceTransitive(a[1..], b[1..], c[1..]);
      } else {
        SubsequenceTransitive(a, b[1..], c[1..]);
      }
    }
  }

  /** Every character of a subsequence occurs in the original. */
  lemma {:induction false} SubsequenceChars(a: string, b: string)
    requires IsSubsequence(a, b)
    ensures forall k :: 0 <= k < |a| ==> a[k] in b
    decreases |b|
  {
    if |a| == 0 {
    } else if a[0] == b[0] && IsSubsequence(a[1..], b[1..]) {
      SubsequenceChars(a[1..], b[1..]);
      forall k | 0 <= k < |a|
        ensures a[k] in b
      {
        if k > 0 {
          assert a[k] == a[1..][k - 1];
          assert a[k] in b[1..];
        }
      }
    } else {
      SubsequenceChars(a, b[1..]);
    }
  }

  /** Keeping the first character of `s` in front of a subsequence of the rest. */
  lemma ConsSubsequence(s: string, r: string)
    requires |s| > 0 && IsSubsequence(r, s[1..])
    ensures IsSubsequence([s[0]] + r, s)
  {
    assert ([s[0]] + r)[1..] == r;
  }

  lemma {:induction false} SuffixIsSubsequence(s: string, i: nat)
    requires i <= |s|
    ensures IsSubsequence(s[i..], s)
    decreases i
  {
    if i == 0 {
      SubsequenceReflexive(s);
    } else {
      SuffixIsSubsequence(s[1..], i - 1);
      assert s[1..][i - 1..] == s[i..];
    }
  }

  lemma {:induction false} PrefixIsSubsequence(s: string, k: nat)
    requires k <= |s|
    ensures IsSubsequence(s[..k], s)
    decreases k
  {
    if k > 0 {
      PrefixIsSubsequence(s[1..], k - 1);
      assert s[..k][1..] == s[1..][..k - 1];
    }
  }

  lemma SliceIsSubsequence(s: string, i: nat, j: nat)
    requires i <= j <= |s|
    ensures IsSubsequence(s[i..j], s)
  {
    PrefixIsSubsequence(s[i..], j - i);
    assert s[i..][..j - i] == s[i..j];
    SuffixIsSubsequence(s, i);
    SubsequenceTransitive(s[i..j], s[i..], s);
  }

  /** `pat` occurs in `s` at position `i`. */
  predicate OccursAt(s: string, pat: string, i: nat) {
    i + |pat| <= |s| && s[i..i + |pat|] == pat
  }

  /** `String.prototype.includes`. */
  predicate Contains(s: string, pat: string) {
    exists i: nat | i <= |s| :: OccursAt(s, pat, i)
  }

  /** Position of the first occurrence of `pat` in `s` at or after `from`. */
  function FindFrom(s: string, pat: string, from: nat): (r: Option<nat>)
    requires from <= |s|
    ensures r.Some? ==> from <= r.value && OccursAt(s, pat, r.value)
    ensures r.Some? ==> forall k :: from <= k < r.value ==> !OccursAt(s, pat, k)
    ensures r.None? ==> forall k :: from <= k ==> !OccursAt(s, pat, k)
    decreases |s| - from
  {
    if OccursAt(s, pat, from) then Some(from)
    else if from + |pat| >= |s| then None
    else FindFrom(s, pat, from + 1)
  }

  /** Position of the first `c` in `s` at or after `from` (`indexOf`). */
  function FindChar(s: string, c: char, from: nat): (r: Option<nat>)
    requires from <= |s|
    ensures r.Some? ==> from <= r.value < |s| && s[r.value] == c
    ensures r.Some? ==> forall k :: from <= k < r.value ==> s[k] != c
    ensures r.None? ==> forall k :: from <= k < |s| ==> s[k] != c
    decreases |s| - from
  {
    if from == |s| then None
    else if s[from] == c then Some(from)
    else FindChar(s, c, from + 1)
  }

  /** `s.replace(pat, rep)` with a string pattern: only the first occurrence is replaced. */
  function ReplaceFirst(s: string, pat: string, rep: string): (r: string)
    ensures !Contains(s, pat) ==> r == s
    ensures OccursAt(s, pat, 0) ==> r == rep + s[|pat|..]
    // in general the first occurrence, wherever it is, is the one replaced
    ensures forall i: nat :: OccursAt(s, pat, i) && (forall k: nat :: k < i ==> !OccursAt(s, pat, k)) ==>
      r == s[..i] + rep + s[i + |pat|..]
    ensures Contains(s, pat) ==> |r| == |s| - |pat| + |rep|
  {
    match FindFrom(s, pat, 0)
    case None => s
    case Some(i) => s[..i] + rep + s[i + |pat|..]
  }

  /** `parts.join(sep)`. */
  function Join(parts: seq<string>, sep: string): (r: string)
    ensures |parts| == 0 ==> r == ""
    ensures |parts| == 1 ==> r == parts[0]
    // the separator stands between each part and the next, the last included
    ensures |parts| >= 2 ==> r == Join(parts[..|parts| - 1], sep) + sep + parts[|parts| - 1]
  {
    if |parts| == 0 then ""
    else if |parts| == 1 then parts[0]
    else
      assert parts[1..][..|parts| - 2] == parts[..|parts| - 1][1..];
      parts[0] + sep + Join(parts[1..], sep)
  }

  datatype Option<+T> = None | Some(value: T)
}
